=== FILE: README.md ===
# dotfiles linker — a Dafny model

`link.py` installs a directory of dotfiles into a home directory by creating
symbolic links. The `Linker` walks the source directory. An entry named
`.dotfiles-subdir` is a marker and is skipped. A directory without the marker
is recreated at the destination and its contents are linked one by one. Any
other entry gets one symbolic link, including a directory that carries the
marker. Every step appends one result to a log, and `summary()` turns the log
into a report.

This project models that core as pure functions over an abstract world:

- **Source.** The source is an immutable tree (`FileSystem.Tree`) rooted at
  `env.srcRoot`. Its directory listings are sequences in the order
  `os.listdir` returns them.
- **Destination.** The destination side is a map from absolute paths
  (sequences of names) to `File(content)`, `Dir` or `Symlink(target)`.
- **OS calls.** `lstat`, `stat`, `realpath`, `os.symlink` and `os.mkdir` are
  functions on that world:
  - `Lookup`, `StatPath` (at most 40 links, then ELOOP; a missing path is
    ENOTDIR below a regular file and ENOENT otherwise) and `RealPath`;
  - `CreateEntry`, whose failures are EEXIST, ENOTDIR, the parent's `stat`
    error, or an error taken from a fault oracle (`env.faults`) for any other
    refusal by the system.
- **State.** The linker threads a `State` of the map and the log through the
  walk.
- **Exceptions.** An exception that escapes the linker becomes the outcome
  `Aborted(state, error)`, which carries the state when it was raised. The
  exceptions modelled are:
  - `os.mkdir` failing in `_link_contents`;
  - `stat` failing inside `files_differ`;
  - `os.listdir` on a source path that is a file.
- **Results.** The six result types form the closed datatype
  `Results.Kind`, in the order of `RESULT_DESCRIPTIONS`.

Modules follow the program: `Paths`, `FileSystem` (the OS calls and
`files_differ`), `Results` (result types and `_add_result`), `Linking`
(`_link`), `Walk` (`_link_contents`, `run`), `Coverage` (where a walk's
results lie and how many there are), `Report` (`summary`), `Install` (what a
first run into free places and a second run do), and `Rerun` (a second run
after any completed first run).

Paths are compared as text: "at or below `dst`" means that `dst` is a prefix
of the path's components. Links inside a path are not followed (see "Left
out").

Where the code and its own docstring disagree, the model follows the code:

- The docstring of `_link_contents` spells the marker `.dotfiles_subdir`. It
  says a directory *with* the marker gets a real directory whose contents are
  linked. The code (link.py:13, 108-112) uses `.dotfiles-subdir`. It recurses
  into a directory *without* the marker and links a directory with it as a
  whole. The comment at link.py:11-12 agrees with the code.
- The linker is meant to report failures rather than stop. The code,
  however, lets three exceptions escape: `os.mkdir` (link.py:98), the
  `filecmp.cmp` call inside `files_differ` on a path that cannot be
  `stat`ed (link.py:60), and `os.listdir` (link.py:101). These are the
  `Aborted` outcomes.

## Model

| member | source | states |
|---|---|---|
| FileSystem.CreateEntry | link.py:57 | `os.symlink`/`os.mkdir` succeed exactly when nothing (not even a dangling link) is at the path, the parent `stat`s as a directory and the system does not refuse; success adds just that entry; an occupied path gives EEXIST and a parent that is a regular file gives ENOTDIR |
| FileSystem.StatExtends | link.py:89-90 | a `stat` that succeeded gives the same answer on any map that only grew |
| FileSystem.FollowWithinMap | link.py:52 | a chain of links that reaches a path that is not a link does so within as many links as the map holds, so `realpath`, bounded by that number, ends where the chain ends |
| FileSystem.RealPathExtends | link.py:52 | where `stat(p)` succeeds, `realpath(p)` is the path `stat` reached, and a map that only grew resolves `p` to the same place |
| FileSystem.FilesDiffer | link.py:16-20 | `files_differ` raises exactly when one of the two paths cannot be `stat`ed, and answers "same" exactly when both are regular files with equal content |
| Results.UnchangedByName | link.py:151 | the result types the report skips are exactly those whose name ends in `.exists` |
| Results.AddResult | link.py:114-121 | `_add_result` appends exactly one record of the given type, path and reason, and changes nothing else |
| Linking.Link | link.py:48-69 | `_link` appends exactly one `link.*` result, for `link`; it either leaves the map alone or adds a symlink at a previously free `link`, so nothing existing is modified; an escaping exception leaves the state as it was |
| Linking.Refused | link.py:58-67 | after `os.symlink` fails, the map is unchanged and exactly one `link.not-created` result is appended for `link`, unless `files_differ` raises, in which case nothing is logged |
| Linking.LinkCases | link.py:52-69 | `link.exists` when `link` is already a link resolving where the target does; `link.created` and the map gains exactly that symlink when the place is free and creatable; an occupied place is never changed and is reported as an identical or a different file (or raises when one side cannot be `stat`ed); any other error is the reason; the map changes iff the result is `link.created` |
| Linking.LinkTwice | link.py:52-57 | where nothing was, a first `_link` logs `link.created` and leaves a symlink to the target; a second identical call logs `link.exists` and changes nothing (idempotence) |
| Walk.Materialize | link.py:89-99 | settling `dst` only ever adds `dst` itself, never changes existing entries and never shortens the log; when `os.mkdir` raises, nothing has changed |
| Walk.MaterializeCases | link.py:89-99 | an existing directory gives `subdir.exists`; another existing path gives `subdir.not-created` with "something already exists here"; a missing path becomes a directory with `subdir.created` exactly when it can be created, otherwise the `mkdir` error escapes |
| Walk.LinkContents | link.py:71-112 | a walk never modifies or removes an existing entry, only adds entries whose paths are textually at or below `dst`, and only appends to the log |
| Walk.LinkEntries | link.py:101-112 | the loop over the listing only adds entries strictly below `dst` and only appends to the log |
| Walk.LinkEntry | link.py:102-112 | handling one entry only adds entries at or below `dst/name` |
| Walk.Run | link.py:45-46 | `run()` only adds entries whose paths are textually at or below the destination root, and never modifies existing ones |
| Walk.WalkStartsWithDestination | link.py:89-99 | the first result of every walk is the one `subdir.*` result for `dst`, classified by what `dst` `stat`s as; `subdir.created` comes with a new directory; a failing `mkdir` aborts before anything is logged |
| Walk.SubdirUnderFileAborts | link.py:89-98 | a missing destination whose parent is a regular file (a `subdir.not-created` parent) makes `os.mkdir` raise ENOTDIR out of the walk |
| Walk.DeepUnderFileAborts | link.py:89-98 | a missing destination whose missing parent lies below a regular file also makes `os.mkdir` raise ENOTDIR out of the walk, because `stat` of the parent raises ENOTDIR |
| Walk.DanglingDestinationAborts | link.py:89-98 | a dangling symlink at the destination does not `exists()`, and `os.mkdir` on it raises EEXIST out of the walk |
| Walk.SourceFileAborts | link.py:101 | walking a source path that is a regular file raises once `dst` is settled |
| Walk.MaterializeSteps | link.py:89-99 | settling `dst` logs one subdir result for `dst`, or nothing when it raises |
| Walk.LinkSteps | link.py:48-69 | `_link` logs one link result for `link`, or nothing when it raises |
| Walk.WalkFollowsPlan | link.py:89-112 | whatever is on disk, a completed walk logs exactly the planned sequence (subdir result for `dst`, then per entry in listing order: nothing for the marker, the nested walk for a directory without the marker, one link result otherwise); an aborted walk logs a prefix of it |
| Walk.EntriesFollowPlan | link.py:101-112 | the same for the loop over the entries from any position |
| Coverage.PlanShape | link.py:89-112 | the planned results start with the subdir result for `dst`, lie at or below `dst` (all later ones strictly below), never name the marker, and contain one link result per leaf |
| Coverage.PlanDistinct | link.py:101-112 | in a tree whose directories list each name once, no path is visited twice |
| Coverage.PlanVisitsEntry | link.py:101-112 | every entry other than the marker is visited: a directory without the marker gets a subdir step at `dst/name`, anything else a link step there |
| Coverage.WalkVisitsEntry | link.py:101-112 | no entry is skipped: a completed walk logs a result at `dst/name` for every entry other than the marker, a `subdir.*` result exactly when the entry is a directory without the marker |
| Coverage.EntriesAvoid | link.py:105-106 | entries with other names never plan anything at or below `dst/n` |
| Coverage.WalkVisitsPath | link.py:101-112 | no entry is skipped at any depth: for every entry reached from the walked directory through directories without the marker, a completed walk logs a result at its destination, a `link.*` result for a leaf and a `subdir.*` result for a directory it descends into; in a tree listing each name once, no other result has that path |
| Coverage.WalkResults | link.py:89-112 | every result of a walk lies at or below the top-level `dst`, the first is the subdir result for `dst`, no later one is at `dst` or names the marker; a completed walk logs as many `link.*` results as the tree has leaves and, in a tree listing each name once, no path twice |
| Report.SummaryNoChanges | link.py:147-157 | the report is exactly "Everything is linked. No changes made." iff every logged result has a `.exists` type |
| Report.SummaryIgnoresUnchanged | link.py:148-153 | a `.exists` result anywhere in the log does not affect the report, so its path never appears |
| Report.SummaryListsChanges | link.py:137-153 | every result that changed something has its line and its type's heading in the report, and every report line is such a heading or such a line |
| Report.SummaryLineUnderHeading | link.py:137-153 | in a log of any length, the line of every result that changed something lies below its own type's heading, with only lines of that type in between, even when it is the only result of its type |
| Report.SectionLine | link.py:143-153 | a line of one type's section is its heading or the line of a logged result of that type |
| Report.SummaryIgnoresOrderAcrossTypes | link.py:147-153 | headings come in the fixed order of the result types: swapping two adjacent results of different types does not change the report |
| Report.SummaryHeadingsInOrder | link.py:147-153 | in a log of any length, the headings of two types that changed something and have results appear in the order of `RESULT_DESCRIPTIONS`, whatever order the results were logged in |
| Report.LinesOfInOrder | link.py:137-145 | two results of one type give that type's lines in the order they were logged |
| Report.SummaryLogOrder | link.py:137-155 | in a log of any length, two results of one type that changed something are listed after that type's heading in log order, and every line from the heading down to the later one is a line of that type |
| Report.SummaryHeadingOrder | link.py:137-155 | for a link result logged before a subdir result, the report still has the subdir heading first; each heading is followed by its line, indented by two spaces with " (reason)" iff the reason is truthy, lines joined by newlines |
| Report.SummaryLogOrderWithinType | link.py:137-155 | the exact text for two results of one changing type: its heading, then their two lines in log order |
| Install.RerunChangesNothing | link.py:71-112 | walking an already installed tree again completes, leaves the map exactly as it was, and logs only `.exists` results; the source may lie inside the destination |
| Install.FirstRunInstalls | link.py:71-112 | walking into a destination that is a directory or can be created, where nothing is yet at or below the entries' own destinations and nothing there is refused, completes with no `*.not-created` result and installs the tree: real directories for directories without the marker, a symlink to its source for everything else; the destination may hold anything else, the source included |
| Install.RunTwice | link.py:45-157 | running the linker twice from such a start: the first run completes without failures and installs the tree; the second completes, changes nothing, and its summary is the no-changes message |
| Install.HomeLayout | link.py:161-167 | the default layout for the home `/u`: the user name is guessed as `u`, so with the script in `/u/d` the dotfiles live in `/u/d/u`, inside the home, which already holds `/u/d`; the first run links `.bashrc` and `.vim/vimrc` to their sources without failures, and a second run changes nothing and reports that everything is linked |
| Rerun.LinkSettled | link.py:48-69 | repeating a `_link` call that completed, on a map grown from its result with nothing new at `link`, completes, changes nothing and logs the same record as the first call, except that a link the first call created is now logged as `link.exists`: an occupied place is still occupied and compared the same way, and a refused place is refused with the same error |
| Rerun.WalkSettled | link.py:71-112 | repeating a completed walk on a map grown from its result with nothing new at or below `dst` completes, changes nothing and logs the first walk's results with every `*.created` turned into `*.exists` |
| Rerun.SecondRunKeepsMap | link.py:45-46 | idempotence after any completed run, whatever the destination held and whatever failed: a second run completes, leaves the map exactly as the first run left it, and logs the first run's results with every `*.created` turned into `*.exists` |
| Install.SecondRunCreatesNothing | link.py:45-46 | after any completed run, a second run logs one result per result of the first, at the same path, none of them `*.created`; after a first run without failures it logs only `*.exists` results and its summary is the no-changes message |

## Left out

- The `__main__` block (link.py:160-215): argument parsing, guessing the home directory, directory checks and `exit` are command-line glue.
- Progress printing in `_add_result` (link.py:123-131) and `_max_type_width` (link.py:36): console formatting only; the model keeps the logging part.
- The `assert type in self.RESULT_TYPES` (link.py:119): the closed `Kind` datatype makes it hold by construction.
- `path.abspath` (link.py:39-40): paths are modelled as already absolute sequences of names.
- FileSystem.FilesDiffer: read errors are not modelled. When both paths are regular files of equal size but different signatures, `filecmp.cmp` opens and reads them, and an unreadable file raises `IOError` out of `_link` (link.py:60) and the run; the model has no read permissions, so its `files_differ` raises only when a `stat` fails.
- `filecmp.cmp`'s shallow comparison of size and modification time and its cache: modelled as "differ unless both are regular files with equal content".
- Symbolic links in the middle of a path: `lstat`, `stat`, `realpath`, `os.symlink` and `os.mkdir` look a path up as a whole and follow links only in its last component. Through a linked directory the program works at the link's target: with `~/.c` a link to `/data`, which holds `f`, `os.symlink` at `~/.c/f` raises EEXIST, while the model finds `~/.c/f` free and creates it. So "at or below `dst`" in the contracts is about the text of paths.
- `realpath` on a cycle of links stops after as many links as the map holds, which need not be where Python's `realpath` stops; on a chain that ends, both end at the same place.
- `os.listdir` failing on a source directory that cannot be read (EACCES at link.py:101 and link.py:109): the source tree always lists; only listing a regular file raises.
- A destination inside the source tree: the program lists each source directory when it reaches it, so directories the walk has just created under `src` appear in later listings and are walked in turn. The model reads every listing from the tree as it was when the run started.
- Symbolic links inside the source tree: the source is a finite tree of files and directories, so `path.isdir` never follows a link there.
- Directory listing order: children are a sequence in whatever order `os.listdir` gives; no property depends on a particular order.
- The text of a Python 2 exception is modelled as "[Errno N] message"; only its truthiness matters to the report's structure.
- Refusals by `os.symlink` and `os.mkdir` other than EEXIST, ENOTDIR and a parent that cannot be `stat`ed (permissions, read-only file systems, full disks) come from a fault oracle in the environment rather than from real OS behaviour.
- Concurrent changes to the file system during a run are not modelled; every call sees the state the previous one left.

=== FILE: coverage.dfy ===
/**
  What the planned results of a walk look like: where they lie, that the
  marker never shows up, that nothing is visited twice, that every entry is
  visited, and how many links there are.
 */
module Coverage {
  import opened Paths
  import opened FileSystem
  import opened Results
  import opened Walk

  /** Every step lies at or below `d`. */
  predicate AllUnder(steps: seq<Step>, d: Path)
  {
    forall k :: 0 <= k < |steps| ==> d <= steps[k].path
  }

  /** No step lies at or below `d`. */
  predicate AllAvoid(steps: seq<Step>, d: Path)
  {
    forall k :: 0 <= k < |steps| ==> !(d <= steps[k].path)
  }

  /** No path is visited twice. */
  predicate DistinctPaths(steps: seq<Step>)
  {
    forall a, b :: 0 <= a < b < |steps| ==> steps[a].path != steps[b].path
  }

  /** No step names the marker. */
  predicate MarkerFree(steps: seq<Step>)
  {
    forall k :: 0 <= k < |steps| ==> |steps[k].path| > 0 && steps[k].path[|steps[k].path| - 1] != Marker
  }

  function CountLinks(steps: seq<Step>): nat
  {
    if |steps| == 0 then 0
    else CountLinks(steps[..|steps| - 1]) + (if steps[|steps| - 1].LinkStep? then 1 else 0)
  }

  /** The number of entries of `t`, at any depth, that a walk links as a whole. */
  function LeafCount(t: Tree): nat
    decreases t, 1, 0
  {
    if t.SourceFile? then 0 else EntriesLeafCount(t, 0)
  }

  function EntriesLeafCount(t: Tree, i: nat): nat
    requires t.SourceDir? && i <= |t.entries|
    decreases t, 0, |t.entries| - i
  {
    if i == |t.entries| then 0
    else
      var e := t.entries[i];
      (if e.name == Marker then 0 else if Nested(e.node) then LeafCount(e.node) else 1)
      + EntriesLeafCount(t, i + 1)
  }

  lemma {:induction false} CountLinksAppend(a: seq<Step>, b: seq<Step>)
    ensures CountLinks(a + b) == CountLinks(a) + CountLinks(b)
    decreases |b|
  {
    if |b| == 0 {
      assert a + b == a;
    } else {
      var b' := b[..|b| - 1];
      assert (a + b)[..|a + b| - 1] == a + b';
      CountLinksAppend(a, b');
    }
  }

  lemma DistinctConcat(x: seq<Step>, y: seq<Step>)
    requires DistinctPaths(x) && DistinctPaths(y)
    requires forall a, b :: 0 <= a < |x| && 0 <= b < |y| ==> x[a].path != y[b].path
    ensures DistinctPaths(x + y)
  {
    var s := x + y;
    forall a, b | 0 <= a < b < |s|
      ensures s[a].path != s[b].path
    {
      if b < |x| {
        assert s[a] == x[a] && s[b] == x[b];
      } else if a >= |x| {
        assert s[a] == y[a - |x|] && s[b] == y[b - |x|];
      } else {
        assert s[a] == x[a] && s[b] == y[b - |x|];
      }
    }
  }

  /**
    The first planned result is the subdir result for `dst`; every other one
    lies strictly below `dst`, never names the marker, and there are as many
    link results as the tree has leaves.
   */
  lemma {:induction false} PlanShape(t: Tree, dst: Path)
    ensures Plan(t, dst)[0] == SubdirStep(dst)
    ensures AllUnder(Plan(t, dst), dst)
    ensures forall k :: 0 < k < |Plan(t, dst)| ==> dst < Plan(t, dst)[k].path
    ensures MarkerFree(Plan(t, dst)[1..])
    ensures CountLinks(Plan(t, dst)) == LeafCount(t)
    decreases t, 1, 0
  {
    var p := Plan(t, dst);
    if t.SourceDir? {
      var rest := PlanEntries(t, 0, dst);
      EntriesShape(t, 0, dst);
      assert p == [SubdirStep(dst)] + rest;
      assert p[1..] == rest;
      CountLinksAppend([SubdirStep(dst)], rest);
      assert CountLinks([SubdirStep(dst)]) == 0 by {
        assert [SubdirStep(dst)][..0] == [];
      }
    } else {
      assert p == [SubdirStep(dst)];
      assert p[1..] == [];
      assert p[..0] == [];
    }
  }

  lemma {:induction false} EntriesShape(t: Tree, i: nat, dst: Path)
    requires t.SourceDir? && i <= |t.entries|
    ensures forall k :: 0 <= k < |PlanEntries(t, i, dst)| ==> dst < PlanEntries(t, i, dst)[k].path
    ensures MarkerFree(PlanEntries(t, i, dst))
    ensures CountLinks(PlanEntries(t, i, dst)) == EntriesLeafCount(t, i)
    decreases t, 0, |t.entries| - i
  {
    if i < |t.entries| {
      var here := EntryPlan(t, i, dst);
      var rest := PlanEntries(t, i + 1, dst);
      EntriesShape(t, i + 1, dst);
      EntryShape(t, i, dst);
      CountLinksAppend(here, rest);
      assert PlanEntries(t, i, dst) == here + rest;
      BelowConcat(here, rest, dst, t.entries[i].name);
    }
  }

  lemma BelowConcat(here: seq<Step>, rest: seq<Step>, dst: Path, n: Name)
    requires AllUnder(here, dst + [n]) && MarkerFree(here) && MarkerFree(rest)
    requires forall k :: 0 <= k < |rest| ==> dst < rest[k].path
    ensures forall k :: 0 <= k < |here + rest| ==> dst < (here + rest)[k].path
    ensures MarkerFree(here + rest)
  {
    var all := here + rest;
    forall k | 0 <= k < |all|
      ensures dst < all[k].path
      ensures |all[k].path| > 0 && all[k].path[|all[k].path| - 1] != Marker
    {
      if k >= |here| {
        assert all[k] == rest[k - |here|];
      } else {
        assert all[k] == here[k];
        assert dst + [n] <= all[k].path;
      }
    }
  }

  /** The planned results of one entry all lie at or below `dst/name`. */
  lemma {:induction false} EntryShape(t: Tree, i: nat, dst: Path)
    requires t.SourceDir? && i < |t.entries|
    ensures AllUnder(EntryPlan(t, i, dst), dst + [t.entries[i].name])
    ensures MarkerFree(EntryPlan(t, i, dst))
    ensures CountLinks(EntryPlan(t, i, dst)) ==
      (var e := t.entries[i]; if e.name == Marker then 0 else if Nested(e.node) then LeafCount(e.node) else 1)
    decreases t, 0, 0
  {
    var e := t.entries[i];
    var d := dst + [e.name];
    var here := EntryPlan(t, i, dst);
    if e.name == Marker {
    } else if Nested(e.node) {
      PlanShape(e.node, d);
      forall k | 0 <= k < |here|
        ensures |here[k].path| > 0 && here[k].path[|here[k].path| - 1] != Marker
      {
        if k == 0 {
          assert here[k].path == d;
        } else {
          assert here[k] == here[1..][k - 1];
        }
      }
    } else {
      assert here == [LinkStep(d)];
      assert here[..0] == [];
    }
  }

  /** Entries from position `i` on that are not called `n` plan nothing at or below `dst/n`. */
  lemma {:induction false} EntriesAvoid(t: Tree, i: nat, dst: Path, n: Name)
    requires t.SourceDir? && i <= |t.entries|
    requires forall j :: i <= j < |t.entries| ==> t.entries[j].name != n
    ensures AllAvoid(PlanEntries(t, i, dst), dst + [n])
    decreases |t.entries| - i
  {
    if i < |t.entries| {
      var here := EntryPlan(t, i, dst);
      var rest := PlanEntries(t, i + 1, dst);
      EntryShape(t, i, dst);
      EntriesAvoid(t, i + 1, dst, n);
      var all := here + rest;
      assert PlanEntries(t, i, dst) == all;
      forall k | 0 <= k < |all|
        ensures !(dst + [n] <= all[k].path)
      {
        if k < |here| {
          SiblingsApart(dst, t.entries[i].name, n, all[k].path);
        } else {
          assert all[k] == rest[k - |here|];
        }
      }
    }
  }

  /** In a tree whose directories list each name once, a walk visits no path twice. */
  lemma {:induction false} PlanDistinct(t: Tree, dst: Path)
    requires ValidTree(t)
    ensures DistinctPaths(Plan(t, dst))
    decreases t, 1, 0
  {
    if t.SourceDir? {
      var rest := PlanEntries(t, 0, dst);
      EntriesDistinct(t, 0, dst);
      EntriesShape(t, 0, dst);
      DistinctConcat([SubdirStep(dst)], rest);
    }
  }

  lemma {:induction false} EntriesDistinct(t: Tree, i: nat, dst: Path)
    requires ValidTree(t) && t.SourceDir? && i <= |t.entries|
    ensures DistinctPaths(PlanEntries(t, i, dst))
    decreases t, 0, |t.entries| - i
  {
    if i < |t.entries| {
      var e := t.entries[i];
      var here := EntryPlan(t, i, dst);
      var rest := PlanEntries(t, i + 1, dst);
      EntriesDistinct(t, i + 1, dst);
      EntryShape(t, i, dst);
      EntriesAvoid(t, i + 1, dst, e.name);
      if e.name != Marker && Nested(e.node) {
        assert ValidTree(e.node);
        PlanDistinct(e.node, dst + [e.name]);
      }
      DistinctConcat(here, rest);
      assert PlanEntries(t, i, dst) == here + rest;
    }
  }

  /** The steps planned for entry `i` occur in the plan of the entries from `j <= i`. */
  lemma {:induction false} EntryPlanIn(t: Tree, j: nat, i: nat, dst: Path, s: Step)
    requires t.SourceDir? && j <= i < |t.entries|
    requires s in EntryPlan(t, i, dst)
    ensures s in PlanEntries(t, j, dst)
    decreases i - j
  {
    assert PlanEntries(t, j, dst) == EntryPlan(t, j, dst) + PlanEntries(t, j + 1, dst);
    if j < i {
      EntryPlanIn(t, j + 1, i, dst, s);
    }
  }

  /**
    Every entry of a walked directory other than the marker is visited: a
    directory without the marker as a subdir result, anything else as a link
    result, at its destination path.
   */
  lemma PlanVisitsEntry(t: Tree, i: nat, dst: Path)
    requires t.SourceDir? && i < |t.entries| && t.entries[i].name != Marker
    ensures var e := t.entries[i];
      (if Nested(e.node) then SubdirStep(dst + [e.name]) else LinkStep(dst + [e.name])) in Plan(t, dst)
  {
    var e := t.entries[i];
    var s := if Nested(e.node) then SubdirStep(dst + [e.name]) else LinkStep(dst + [e.name]);
    if Nested(e.node) {
      assert EntryPlan(t, i, dst) == Plan(e.node, dst + [e.name]) == [s] + PlanEntries(e.node, 0, dst + [e.name]);
    } else {
      assert EntryPlan(t, i, dst) == [s];
    }
    assert s in EntryPlan(t, i, dst);
    EntryPlanIn(t, 0, i, dst, s);
    assert Plan(t, dst) == [SubdirStep(dst)] + PlanEntries(t, 0, dst);
  }

  lemma ShapePath(r: Record)
    ensures Shape(r).path == r.path
    ensures Shape(r).SubdirStep? <==> IsSubdirKind(r.kind)
  {
  }

  /** Where the steps of a plan for `dst` lie. */
  predicate PlanPlaced(plan: seq<Step>, dst: Path)
  {
    |plan| > 0 && plan[0] == SubdirStep(dst) && AllUnder(plan, dst) && MarkerFree(plan[1..]) &&
    forall k :: 0 < k < |plan| ==> dst < plan[k].path
  }

  lemma PlanIsPlaced(t: Tree, dst: Path)
    ensures PlanPlaced(Plan(t, dst), dst)
  {
    PlanShape(t, dst);
  }

  /** Results whose shapes are a prefix of a plan lie where the plan's steps do. */
  lemma ResultsAlongPlan(added: seq<Record>, plan: seq<Step>, dst: Path)
    requires Shapes(added) <= plan && PlanPlaced(plan, dst)
    ensures ResultsPlaced(added, dst)
  {
    var steps := Shapes(added);
    forall k | 0 <= k < |added|
      ensures added[k].path == plan[k].path
      ensures k == 0 ==> IsSubdirKind(added[k].kind)
    {
      ShapePath(added[k]);
      assert steps[k] == plan[k];
    }
    forall k | 0 < k < |added|
      ensures dst < added[k].path && added[k].path[|added[k].path| - 1] != Marker
    {
      assert plan[1..][k - 1] == plan[k];
    }
  }

  /** Results whose shapes are a plan without repeated paths repeat no path. */
  lemma ResultsDistinct(added: seq<Record>, plan: seq<Step>)
    requires Shapes(added) == plan && DistinctPaths(plan)
    ensures forall a, b :: 0 <= a < b < |added| ==> added[a].path != added[b].path
  {
    forall a, b | 0 <= a < b < |added|
      ensures added[a].path != added[b].path
    {
      ShapePath(added[a]);
      ShapePath(added[b]);
    }
  }

  /**
    Where a walk into `dst` puts its results: every one at or below `dst`,
    the first being the subdir result for `dst` and the rest strictly below
    it, never naming the marker.
   */
  predicate ResultsPlaced(added: seq<Record>, dst: Path)
  {
    (forall k :: 0 <= k < |added| ==> dst <= added[k].path) &&
    (|added| > 0 ==> added[0].path == dst && IsSubdirKind(added[0].kind)) &&
    (forall k :: 0 < k < |added| ==>
       dst < added[k].path && added[k].path[|added[k].path| - 1] != Marker)
  }

  /**
    What a complete walk of `t` logs: one link result per leaf and, in a tree
    listing each name once, no path twice.
   */
  predicate ResultsComplete(added: seq<Record>, t: Tree)
  {
    CountLinks(Shapes(added)) == LeafCount(t) &&
    (ValidTree(t) ==> forall a, b :: 0 <= a < b < |added| ==> added[a].path != added[b].path)
  }

  /** An outcome that follows the plan of `t` has placed its results as the plan does. */
  lemma OutcomeAlongPlan(st: State, out: Outcome, t: Tree, dst: Path)
    requires st.log <= out.state.log && NewSteps(st, out) <= Plan(t, dst)
    ensures ResultsPlaced(out.state.log[|st.log|..], dst)
  {
    PlanIsPlaced(t, dst);
    ResultsAlongPlan(out.state.log[|st.log|..], Plan(t, dst), dst);
  }

  /** An outcome that has logged the whole plan of `t` has logged every leaf once. */
  lemma OutcomeCompletesPlan(st: State, out: Outcome, t: Tree, dst: Path)
    requires st.log <= out.state.log && NewSteps(st, out) == Plan(t, dst)
    ensures ResultsComplete(out.state.log[|st.log|..], t)
  {
    PlanShape(t, dst);
    if ValidTree(t) {
      PlanDistinct(t, dst);
      ResultsDistinct(out.state.log[|st.log|..], Plan(t, dst));
    }
  }

  /**
    A walk places its results under `dst` as planned, and a completed walk
    logs every leaf once.
   */
  lemma WalkResults(env: Env, src: Path, t: Tree, dst: Path, st: State)
    ensures var out := LinkContents(env, src, t, dst, st);
      ResultsPlaced(out.state.log[|st.log|..], dst) &&
      (out.Done? ==> ResultsComplete(out.state.log[|st.log|..], t))
  {
    var out := LinkContents(env, src, t, dst, st);
    WalkFollowsPlan(env, src, t, dst, st);
    OutcomeAlongPlan(st, out, t, dst);
    if out.Done? {
      OutcomeCompletesPlan(st, out, t, dst);
    }
  }

  /**
    No entry is skipped: a walk that completes logs a result at `dst/name` for
    every entry other than the marker, a `subdir.*` result for a directory
    without the marker and a `link.*` result for anything else.
   */
  lemma WalkVisitsEntry(env: Env, src: Path, t: Tree, dst: Path, st: State, i: nat)
    requires t.SourceDir? && i < |t.entries| && t.entries[i].name != Marker
    requires LinkContents(env, src, t, dst, st).Done?
    ensures var out := LinkContents(env, src, t, dst, st);
      var e := t.entries[i];
      exists k :: |st.log| <= k < |out.state.log| &&
        out.state.log[k].path == dst + [e.name] &&
        (IsSubdirKind(out.state.log[k].kind) <==> Nested(e.node))
  {
    var out := LinkContents(env, src, t, dst, st);
    var e := t.entries[i];
    var added := out.state.log[|st.log|..];
    WalkFollowsPlan(env, src, t, dst, st);
    PlanVisitsEntry(t, i, dst);
    var s := if Nested(e.node) then SubdirStep(dst + [e.name]) else LinkStep(dst + [e.name]);
    var m :| 0 <= m < |Shapes(added)| && Shapes(added)[m] == s;
    ShapePath(added[m]);
    assert out.state.log[|st.log| + m] == added[m];
  }

  /**
    `rel` leads from the walked directory `t` to `node` through directories
    the walk descends into, never naming the marker: `node` is an entry a
    walk of `t` visits, at any depth.
   */
  predicate Reached(t: Tree, rel: Path, node: Tree)
    decreases |rel|
  {
    t.SourceDir? && |rel| > 0 && rel[0] != Marker &&
    var k := IndexOf(t.entries, rel[0]);
    0 <= k &&
    if |rel| == 1 then t.entries[k].node == node
    else Nested(t.entries[k].node) && Reached(t.entries[k].node, rel[1..], node)
  }

  /** The plan visits every reached entry at its destination, however deep. */
  lemma {:induction false} PlanVisitsPath(t: Tree, rel: Path, node: Tree, dst: Path)
    requires Reached(t, rel, node)
    ensures (if Nested(node) then SubdirStep(dst + rel) else LinkStep(dst + rel)) in Plan(t, dst)
    decreases |rel|
  {
    var k := IndexOf(t.entries, rel[0]);
    var e := t.entries[k];
    if |rel| == 1 {
      PlanVisitsEntry(t, k, dst);
      assert dst + [e.name] == dst + rel;
    } else {
      var s := if Nested(node) then SubdirStep(dst + rel) else LinkStep(dst + rel);
      PlanVisitsPath(e.node, rel[1..], node, dst + [e.name]);
      assert dst + [e.name] + rel[1..] == dst + rel;
      assert EntryPlan(t, k, dst) == Plan(e.node, dst + [e.name]);
      EntryPlanIn(t, 0, k, dst, s);
      assert Plan(t, dst) == [SubdirStep(dst)] + PlanEntries(t, 0, dst);
    }
  }

  /**
    No entry is skipped at any depth: a walk that completes logs a result at
    `dst` followed by the entry's relative path for every entry it reaches,
    a `link.*` result for every leaf and a `subdir.*` result for every
    directory it descends into; in a tree listing each name once, it is the
    only result at that path.
   */
  lemma WalkVisitsPath(env: Env, src: Path, t: Tree, dst: Path, st: State, rel: Path, node: Tree)
    requires Reached(t, rel, node)
    requires LinkContents(env, src, t, dst, st).Done?
    ensures var out := LinkContents(env, src, t, dst, st);
      exists k :: |st.log| <= k < |out.state.log| &&
        out.state.log[k].path == dst + rel &&
        (IsSubdirKind(out.state.log[k].kind) <==> Nested(node))
    ensures var out := LinkContents(env, src, t, dst, st);
      ValidTree(t) ==>
        forall a, b :: |st.log| <= a < b < |out.state.log| && out.state.log[a].path == dst + rel ==>
          out.state.log[b].path != dst + rel
  {
    var out := LinkContents(env, src, t, dst, st);
    var added := out.state.log[|st.log|..];
    WalkFollowsPlan(env, src, t, dst, st);
    PlanVisitsPath(t, rel, node, dst);
    var s := if Nested(node) then SubdirStep(dst + rel) else LinkStep(dst + rel);
    var m :| 0 <= m < |Shapes(added)| && Shapes(added)[m] == s;
    ShapePath(added[m]);
    assert out.state.log[|st.log| + m] == added[m];
    if ValidTree(t) {
      WalkResults(env, src, t, dst, st);
      forall a, b | |st.log| <= a < b < |out.state.log|
        ensures out.state.log[a].path != out.state.log[b].path
      {
        assert out.state.log[a] == added[a - |st.log|];
        assert out.state.log[b] == added[b - |st.log|];
      }
    }
  }
}

=== FILE: filesystem.dfy ===
/**
  An abstract file system: an immutable source tree located at a root path,
  and a destination-side map from paths to entries that the linker may grow.
  The operating-system calls the linker makes (`lstat`, `stat`, `os.symlink`,
  `os.mkdir`, `filecmp.cmp`) are functions over this state.
 */
module FileSystem {
  import opened Paths

  datatype Option<T> = None | Some(value: T)

  /** An error as the operating system reports it: its number and its text. */
  datatype OsError = OsError(errno: nat, strerror: string)

  datatype Result<T> = Ok(value: T) | Err(error: OsError)

  const ENOENT := OsError(2, "No such file or directory")
  const EEXIST := OsError(17, "File exists")
  const ENOTDIR := OsError(20, "Not a directory")
  const ELOOP := OsError(40, "Too many levels of symbolic links")

  /** How many symbolic links `stat` follows before it gives up with ELOOP. */
  const MaxSymlinks: nat := 40

  /** The source tree of dotfiles: regular files and directories, no links. */
  datatype Tree = SourceFile(content: string) | SourceDir(entries: seq<Entry>)

  /** One name of a directory listing, in listing order. */
  datatype Entry = Entry(name: Name, node: Tree)

  /** What `lstat` sees at a path outside the source tree. */
  datatype Node = File(content: string) | Dir | Symlink(target: Path)

  type Fs = map<Path, Node>

  /** What `stat` sees once symbolic links are followed. */
  datatype Stat = Regular(content: string) | Directory

  /**
    The parts of the world the linker only reads: the source tree at
    `srcRoot`, and `faults`, the paths where the operating system refuses to
    create an entry for a reason other than "exists" (permissions, a full
    disk, ...), with the error it raises.
   */
  datatype Env = Env(srcRoot: Path, source: Tree, faults: map<Path, OsError>)

  /** Every directory lists each name at most once, at every depth. */
  predicate ValidTree(t: Tree)
  {
    t.SourceDir? ==>
      (forall i, j :: 0 <= i < j < |t.entries| ==> t.entries[i].name != t.entries[j].name) &&
      (forall i :: 0 <= i < |t.entries| ==> ValidTree(t.entries[i].node))
  }

  /** Position of the first entry called `n`, or -1. */
  function IndexOf(entries: seq<Entry>, n: Name): (k: int)
    ensures -1 <= k < |entries|
    ensures 0 <= k ==> entries[k].name == n
    ensures forall j :: 0 <= j < |entries| && (k < 0 || j < k) ==> entries[j].name != n
  {
    if |entries| == 0 then -1
    else if entries[0].name == n then 0
    else
      var k := IndexOf(entries[1..], n);
      if k < 0 then -1 else k + 1
  }

  /** The node of `t` at the relative path `rel`, if there is one. */
  function TreeAt(t: Tree, rel: Path): Option<Tree>
    decreases |rel|
  {
    if |rel| == 0 then Some(t)
    else if t.SourceFile? then None
    else
      var k := IndexOf(t.entries, rel[0]);
      if k < 0 then None else TreeAt(t.entries[k].node, rel[1..])
  }

  /** In a directory that lists each name once, the path of an entry's name leads to that entry. */
  lemma {:induction false} TreeAtEntry(root: Tree, rel: Path, t: Tree, i: nat)
    requires TreeAt(root, rel) == Some(t) && ValidTree(t) && t.SourceDir? && i < |t.entries|
    ensures TreeAt(root, rel + [t.entries[i].name]) == Some(t.entries[i].node)
    decreases |rel|
  {
    var n := t.entries[i].name;
    if |rel| == 0 {
      var k := IndexOf(t.entries, n);
      assert rel + [n] == [n] && [n][1..] == [];
      assert k == i;
    } else {
      var k := IndexOf(root.entries, rel[0]);
      assert (rel + [n])[0] == rel[0] && (rel + [n])[1..] == rel[1..] + [n];
      TreeAtEntry(root.entries[k].node, rel[1..], t, i);
    }
  }

  /** The map's entry at `p`, if any. */
  function Get(fs: Fs, p: Path): (r: Option<Node>)
    ensures r.Some? <==> p in fs
    ensures r.Some? ==> r.value == fs[p]
  {
    if p in fs then Some(fs[p]) else None
  }

  /** `lstat(p)`: the entry at `p` itself, without following a final link. */
  function Lookup(env: Env, fs: Fs, p: Path): (r: Option<Node>)
    ensures r.Some? && r.value.Symlink? ==> p in fs && fs[p] == r.value
    ensures p in fs && !(env.srcRoot <= p) ==> r == Some(fs[p])
    ensures p !in fs && !(env.srcRoot <= p) ==> r == None
  {
    if env.srcRoot <= p then
      match TreeAt(env.source, p[|env.srcRoot|..])
      case Some(SourceFile(c)) => Some(File(c))
      case Some(SourceDir(_)) => Some(Dir)
      case None => Get(fs, p)
    else Get(fs, p)
  }

  /** `islink(p)`. */
  predicate IsLink(env: Env, fs: Fs, p: Path)
  {
    Lookup(env, fs, p).Some? && Lookup(env, fs, p).value.Symlink?
  }

  /** Follows the chain of symbolic links that starts at `p`, at most `fuel` of them. */
  function Follow(env: Env, fs: Fs, p: Path, fuel: nat): Path
    decreases fuel
  {
    match Lookup(env, fs, p)
    case Some(Symlink(t)) => if fuel == 0 then p else Follow(env, fs, t, fuel - 1)
    case _ => p
  }

  /**
    `realpath(p)`. The source tree holds no links, so every link lies in the
    map and a chain that ends passes at most `|fs|` of them (`FollowWithinMap`).
   */
  function RealPath(env: Env, fs: Fs, p: Path): Path
  {
    Follow(env, fs, p, |fs|)
  }

  /** `lstat(p)` finds a regular file. */
  predicate FileAt(env: Env, fs: Fs, p: Path)
  {
    Lookup(env, fs, p).Some? && Lookup(env, fs, p).value.File?
  }

  /** A component above `p` is a regular file. */
  predicate UnderFile(env: Env, fs: Fs, p: Path)
  {
    exists k :: 0 < k < |p| && FileAt(env, fs, p[..k])
  }

  /**
    `stat(p)`: the entry a path denotes once its links are followed. A
    missing path below a regular file gives ENOTDIR, any other missing path
    ENOENT.
   */
  function StatPath(env: Env, fs: Fs, p: Path): (r: Result<Stat>)
    ensures r.Err? ==> r.error == ENOENT || r.error == ENOTDIR || r.error == ELOOP
    ensures Lookup(env, fs, p).None? ==> r.Err? && (r.error == ENOTDIR <==> UnderFile(env, fs, p))
  {
    var q := Follow(env, fs, p, MaxSymlinks);
    match Lookup(env, fs, q)
    case Some(File(c)) => Ok(Regular(c))
    case Some(Dir) => Ok(Directory)
    case Some(Symlink(_)) => Err(ELOOP)
    case None => if UnderFile(env, fs, q) then Err(ENOTDIR) else Err(ENOENT)
  }

  /** A path that is not a link denotes itself. */
  lemma FollowNonLink(env: Env, fs: Fs, p: Path, fuel: nat)
    requires !IsLink(env, fs, p)
    ensures Follow(env, fs, p, fuel) == p
  {
  }

  /** Everything `fs` holds, `fs'` holds unchanged. */
  predicate Extends(fs: Fs, fs': Fs)
  {
    forall p :: p in fs ==> p in fs' && fs'[p] == fs[p]
  }

  /** Growing the map never changes what `lstat` already sees. */
  lemma LookupExtends(env: Env, fs: Fs, fs': Fs, p: Path)
    requires Extends(fs, fs') && Lookup(env, fs, p).Some?
    ensures Lookup(env, fs', p) == Lookup(env, fs, p)
  {
  }

  /** A map that grows holds at least as many entries. */
  lemma ExtendsSize(fs: Fs, fs': Fs)
    requires Extends(fs, fs')
    ensures |fs| <= |fs'|
  {
    var extra := fs'.Keys - fs.Keys;
    assert fs'.Keys == fs.Keys + extra;
    assert fs.Keys * extra == {};
  }

  /** Following `a` links and then `b` more is following `a + b`. */
  lemma {:induction false} FollowCompose(env: Env, fs: Fs, p: Path, a: nat, b: nat)
    ensures Follow(env, fs, p, a + b) == Follow(env, fs, Follow(env, fs, p, a), b)
    decreases a
  {
    match Lookup(env, fs, p)
    case Some(Symlink(t)) =>
      if a > 0 {
        FollowCompose(env, fs, t, a - 1, b);
      }
    case _ =>
  }

  /** Once a chain has reached a path that is not a link, more fuel changes nothing. */
  lemma FollowSettled(env: Env, fs: Fs, p: Path, k: nat, n: nat)
    requires k <= n && !IsLink(env, fs, Follow(env, fs, p, k))
    ensures Follow(env, fs, p, n) == Follow(env, fs, p, k)
  {
    FollowCompose(env, fs, p, k, n - k);
    FollowNonLink(env, fs, Follow(env, fs, p, k), n - k);
  }

  /** Among `n + 1` positions of a chain that lie in a set of at most `n` paths, two coincide. */
  lemma {:induction false} ChainRepeats(env: Env, fs: Fs, p: Path, n: nat, s: set<Path>)
    requires forall m :: 0 <= m <= n ==> Follow(env, fs, p, m) in s
    requires |s| <= n
    ensures exists i, j :: 0 <= i < j <= n && Follow(env, fs, p, i) == Follow(env, fs, p, j)
    decreases n
  {
    var last := Follow(env, fs, p, n);
    if !exists i :: 0 <= i < n && Follow(env, fs, p, i) == last {
      assert last in s;
      ChainRepeats(env, fs, p, n - 1, s - {last});
    }
  }

  /**
    A chain that reaches a path that is not a link does so within `|fs|`
    links, since each link it passes is an entry of the map: this is why
    `RealPath` can stop after `|fs|` of them.
   */
  lemma {:induction false} FollowWithinMap(env: Env, fs: Fs, p: Path, k: nat)
    requires !IsLink(env, fs, Follow(env, fs, p, k))
    ensures Follow(env, fs, p, |fs|) == Follow(env, fs, p, k)
    decreases k
  {
    var n := |fs|;
    if k <= n {
      FollowSettled(env, fs, p, k, n);
    } else if m :| 0 <= m <= n && !IsLink(env, fs, Follow(env, fs, p, m)) {
      FollowSettled(env, fs, p, m, n);
      FollowSettled(env, fs, p, m, k);
    } else {
      ChainRepeats(env, fs, p, n, fs.Keys);
      var i, j :| 0 <= i < j <= n && Follow(env, fs, p, i) == Follow(env, fs, p, j);
      FollowCompose(env, fs, p, j, k - j);
      FollowCompose(env, fs, p, i, k - j);
      FollowWithinMap(env, fs, p, k - (j - i));
    }
  }

  /**
    Growing the map, and following further, does not move the end of a chain
    that already ended at an existing path that is not a link.
   */
  lemma {:induction false} FollowExtends(env: Env, fs: Fs, fs': Fs, p: Path, n: nat, m: nat)
    requires Extends(fs, fs') && n <= m
    requires Lookup(env, fs, Follow(env, fs, p, n)).Some? && !IsLink(env, fs, Follow(env, fs, p, n))
    ensures Follow(env, fs', p, m) == Follow(env, fs, p, n)
    decreases n
  {
    LookupExtends(env, fs, fs', p);
    if IsLink(env, fs, p) {
      FollowExtends(env, fs, fs', Lookup(env, fs, p).value.target, n - 1, m - 1);
    }
  }

  /** Growing the map never changes a `stat` that succeeded. */
  lemma StatExtends(env: Env, fs: Fs, fs': Fs, p: Path)
    requires Extends(fs, fs') && StatPath(env, fs, p).Ok?
    ensures StatPath(env, fs', p) == StatPath(env, fs, p)
  {
    var q := Follow(env, fs, p, MaxSymlinks);
    FollowExtends(env, fs, fs', p, MaxSymlinks, MaxSymlinks);
    LookupExtends(env, fs, fs', q);
  }

  /** Where `stat(p)` succeeds, `realpath(p)` is the path `stat` reached, and growing the map keeps it. */
  lemma RealPathExtends(env: Env, fs: Fs, fs': Fs, p: Path)
    requires Extends(fs, fs') && StatPath(env, fs, p).Ok?
    ensures RealPath(env, fs, p) == Follow(env, fs, p, MaxSymlinks)
    ensures RealPath(env, fs', p) == RealPath(env, fs, p)
  {
    FollowWithinMap(env, fs, p, MaxSymlinks);
    ExtendsSize(fs, fs');
    FollowExtends(env, fs, fs', p, |fs|, |fs'|);
  }

  /**
    `os.symlink(target, p)` and `os.mkdir(p)`: create `node` at `p`. The call
    fails with EEXIST when anything is at `p` (a dangling link included), with
    ENOTDIR or the `stat` error when the parent is not a directory, and with
    the oracle's error where the system refuses.
   */
  function CreateEntry(env: Env, fs: Fs, p: Path, node: Node): (r: Result<Fs>)
    ensures Lookup(env, fs, p).Some? ==> r == Err(EEXIST)
    ensures r.Ok? <==>
      Lookup(env, fs, p).None? && StatPath(env, fs, Parent(p)) == Ok(Directory) && p !in env.faults
    ensures r.Ok? ==> p !in fs && r.value == fs[p := node]
    ensures Lookup(env, fs, p).None? && StatPath(env, fs, Parent(p)).Ok? &&
      StatPath(env, fs, Parent(p)).value.Regular?
      ==> r == Err(ENOTDIR)
  {
    if Lookup(env, fs, p).Some? then Err(EEXIST)
    else
      match StatPath(env, fs, Parent(p))
      case Err(e) => Err(e)
      case Ok(Regular(_)) => Err(ENOTDIR)
      case Ok(Directory) => if p in env.faults then Err(env.faults[p]) else Ok(fs[p := node])
  }

  /** Both paths `stat` to regular files with the same content. */
  predicate SameRegularContent(env: Env, fs: Fs, a: Path, b: Path)
  {
    var sa := StatPath(env, fs, a);
    sa.Ok? && sa.value.Regular? && StatPath(env, fs, b) == sa
  }

  /**
    `files_differ(a, b)`, that is `not filecmp.cmp(a, b)`: the files differ
    unless both are regular files with equal content; a path that cannot be
    `stat`ed raises.
   */
  function FilesDiffer(env: Env, fs: Fs, a: Path, b: Path): (r: Result<bool>)
    ensures r.Err? <==> StatPath(env, fs, a).Err? || StatPath(env, fs, b).Err?
    ensures r == Ok(false) <==> SameRegularContent(env, fs, a, b)
  {
    match StatPath(env, fs, a)
    case Err(e) => Err(e)
    case Ok(sa) =>
      match StatPath(env, fs, b)
      case Err(e) => Err(e)
      case Ok(sb) => Ok(!(sa.Regular? && sb.Regular? && sa.content == sb.content))
  }
}

=== FILE: install.dfy ===
/**
  Running the linker twice. A first run into a destination that is free
  wherever the source's entries go links everything and fails nowhere, even
  when the source lies inside the destination; a second run over the result
  finds every subdir and link already in place, changes nothing, and reports
  that everything is linked.
 */
module Install {
  import opened Paths
  import opened FileSystem
  import opened Results
  import opened Linking
  import opened Walk
  import opened Report
  import opened Rerun

  /** The destination map holds nothing inside the source tree. */
  predicate SourceApart(env: Env, fs: Fs)
  {
    forall p :: p in fs ==> !(env.srcRoot <= p)
  }

  /** Neither path lies at or below the other. */
  predicate Apart(a: Path, b: Path)
  {
    !(a <= b) && !(b <= a)
  }

  /**
    The state a completed walk of `t` from `src` into `dst` leaves behind:
    `dst` is a directory, every directory without the marker is installed in
    turn, and every other entry is a symbolic link to its source path.
   */
  predicate Installed(fs: Fs, src: Path, t: Tree, dst: Path)
    decreases t, 1
  {
    dst in fs && fs[dst] == Dir &&
    (t.SourceDir? ==> forall i :: 0 <= i < |t.entries| ==> EntryInstalled(fs, src, t, i, dst))
  }

  predicate EntryInstalled(fs: Fs, src: Path, t: Tree, i: nat, dst: Path)
    requires t.SourceDir? && i < |t.entries|
    decreases t, 0
  {
    var e := t.entries[i];
    e.name == Marker ||
    (if Nested(e.node) then Installed(fs, src + [e.name], e.node, dst + [e.name])
     else dst + [e.name] in fs && fs[dst + [e.name]] == Symlink(src + [e.name]))
  }

  /** No result of a `*.not-created` type. */
  predicate NoFailures(log: seq<Record>)
  {
    forall m :: 0 <= m < |log| ==> log[m].kind != SubdirNotCreated && log[m].kind != LinkNotCreated
  }

  /**
    A step from `st` that completed, kept the map out of the source tree, and
    logged no `*.not-created` result.
   */
  predicate Clean(env: Env, st: State, out: Outcome)
  {
    out.Done? && SourceApart(env, out.state.fs) && st.log <= out.state.log &&
    NoFailures(out.state.log[|st.log|..])
  }

  // ---------------------------------------------------------------------
  // Small facts about paths and logs
  // ---------------------------------------------------------------------

  /** What lies at or above a child path lies at or above its parent, or is the child. */
  lemma ChildPrefix(a: Path, d: Path, n: Name)
    ensures a <= d + [n] ==> a <= d || a == d + [n]
  {
    if a <= d + [n] && |a| <= |d| {
      assert a == (d + [n])[..|a|] == d[..|a|];
    }
  }

  lemma ApartChild(a: Path, d: Path, n: Name)
    requires Apart(a, d)
    ensures Apart(a, d + [n])
  {
    ChildPrefix(a, d, n);
    if d + [n] <= a {
      BelowChild(d, n, a);
    }
  }

  /**
    Where a walk of `t` into `dst` stays clear of the source tree: `dst` is not
    inside it, and the destination of every entry other than the marker lies
    neither inside it nor above it. The source root may lie below `dst`
    itself, as `~/dotfiles/<user>` lies below `~`.
   */
  predicate ClearOfSource(env: Env, t: Tree, dst: Path)
    requires t.SourceDir?
  {
    !(env.srcRoot <= dst) &&
    forall i :: 0 <= i < |t.entries| && t.entries[i].name != Marker ==>
      Apart(env.srcRoot, dst + [t.entries[i].name])
  }

  /** A destination apart from the source root is clear of it for any tree. */
  lemma ApartClear(env: Env, t: Tree, dst: Path)
    requires t.SourceDir? && Apart(env.srcRoot, dst)
    ensures ClearOfSource(env, t, dst)
  {
    forall i | 0 <= i < |t.entries| && t.entries[i].name != Marker
      ensures Apart(env.srcRoot, dst + [t.entries[i].name])
    {
      ApartChild(env.srcRoot, dst, t.entries[i].name);
    }
  }

  /** With nothing of the map inside the source tree, no source path is a link. */
  lemma SourceNotLink(env: Env, fs: Fs, p: Path)
    requires SourceApart(env, fs) && env.srcRoot <= p
    ensures !IsLink(env, fs, p)
  {
    if TreeAt(env.source, p[|env.srcRoot|..]).None? {
      assert p !in fs;
    }
  }

  /** A directory in the map, outside the source tree, `stat`s as a directory. */
  lemma StatDir(env: Env, fs: Fs, dst: Path)
    requires !(env.srcRoot <= dst) && dst in fs && fs[dst] == Dir
    ensures StatPath(env, fs, dst) == Ok(Directory)
  {
    FollowNonLink(env, fs, dst, MaxSymlinks);
  }

  lemma AllUnchangedChain(a: seq<Record>, b: seq<Record>, c: seq<Record>)
    requires a <= b <= c
    requires AllUnchanged(b[|a|..]) && AllUnchanged(c[|b|..])
    ensures AllUnchanged(c[|a|..])
  {
    SliceSplit(a, b, c);
    var x: seq<Record>, y: seq<Record> := b[|a|..], c[|b|..];
    forall m | 0 <= m < |x + y|
      ensures Unchanged((x + y)[m].kind)
    {
      if m < |x| {
        assert (x + y)[m] == x[m];
      } else {
        assert (x + y)[m] == y[m - |x|];
      }
    }
  }

  lemma NoFailuresChain(a: seq<Record>, b: seq<Record>, c: seq<Record>)
    requires a <= b <= c
    requires NoFailures(b[|a|..]) && NoFailures(c[|b|..])
    ensures NoFailures(c[|a|..])
  {
    SliceSplit(a, b, c);
    var x: seq<Record>, y: seq<Record> := b[|a|..], c[|b|..];
    forall m | 0 <= m < |x + y|
      ensures (x + y)[m].kind != SubdirNotCreated && (x + y)[m].kind != LinkNotCreated
    {
      if m < |x| {
        assert (x + y)[m] == x[m];
      } else {
        assert (x + y)[m] == y[m - |x|];
      }
    }
  }

  lemma CleanChain(env: Env, s0: State, o1: Outcome, o2: Outcome)
    requires Clean(env, s0, o1) && Clean(env, o1.state, o2)
    ensures Clean(env, s0, o2)
  {
    NoFailuresChain(s0.log, o1.state.log, o2.state.log);
  }

  lemma AddedOne(st: State, k: Kind, p: Path, why: Reason)
    ensures var st' := AddResult(st, k, p, why);
      st.log <= st'.log && st'.log[|st.log|..] == [Record(k, p, why)]
  {
  }

  // ---------------------------------------------------------------------
  // An installed tree stays installed
  // ---------------------------------------------------------------------

  /** Growing the map never undoes an installation. */
  lemma {:induction false} InstalledExtends(fs: Fs, fs': Fs, src: Path, t: Tree, dst: Path)
    requires Extends(fs, fs') && Installed(fs, src, t, dst)
    ensures Installed(fs', src, t, dst)
    decreases t, 1
  {
    if t.SourceDir? {
      forall i | 0 <= i < |t.entries|
        ensures EntryInstalled(fs', src, t, i, dst)
      {
        EntryInstalledExtends(fs, fs', src, t, i, dst);
      }
    }
  }

  lemma {:induction false} EntryInstalledExtends(fs: Fs, fs': Fs, src: Path, t: Tree, i: nat, dst: Path)
    requires t.SourceDir? && i < |t.entries|
    requires Extends(fs, fs') && EntryInstalled(fs, src, t, i, dst)
    ensures EntryInstalled(fs', src, t, i, dst)
    decreases t, 0
  {
    var e := t.entries[i];
    if e.name != Marker && Nested(e.node) {
      InstalledExtends(fs, fs', src + [e.name], e.node, dst + [e.name]);
    }
  }

  // ---------------------------------------------------------------------
  // A run over an installed tree changes nothing
  // ---------------------------------------------------------------------

  /** An installed leaf is already linked. */
  lemma LeafAlreadyLinked(env: Env, fs: Fs, src: Path, dst: Path, n: Name)
    requires env.srcRoot <= src && !(env.srcRoot <= dst + [n]) && SourceApart(env, fs)
    requires dst + [n] in fs && fs[dst + [n]] == Symlink(src + [n])
    ensures AlreadyLinked(env, fs, src + [n], dst + [n])
  {
    var target := src + [n];
    SourceNotLink(env, fs, target);
    FollowNonLink(env, fs, target, |fs|);
    FollowNonLink(env, fs, target, |fs| - 1);
  }

  /**
    Walking an installed tree again completes, leaves the map exactly as it
    was, and logs only `*.exists` results.
   */
  lemma {:induction false} RerunChangesNothing(env: Env, src: Path, t: Tree, dst: Path, st: State)
    requires t.SourceDir? && env.srcRoot <= src && ClearOfSource(env, t, dst) && SourceApart(env, st.fs)
    requires Installed(st.fs, src, t, dst)
    ensures var out := LinkContents(env, src, t, dst, st);
      out.Done? && out.state.fs == st.fs && st.log <= out.state.log &&
      AllUnchanged(out.state.log[|st.log|..])
    decreases t, 1, 0, 0
  {
    var out := LinkContents(env, src, t, dst, st);
    StatDir(env, st.fs, dst);
    var m := AddResult(st, SubdirExists, dst, NoReason);
    assert Materialize(env, st, dst) == Done(m);
    AddedOne(st, SubdirExists, dst, NoReason);
    assert out == LinkEntries(env, src, t, 0, dst, m);
    RerunEntries(env, src, t, 0, dst, m);
    AllUnchangedChain(st.log, m.log, out.state.log);
  }

  lemma {:induction false} RerunEntries(env: Env, src: Path, t: Tree, i: nat, dst: Path, st: State)
    requires t.SourceDir? && env.srcRoot <= src && ClearOfSource(env, t, dst) && SourceApart(env, st.fs)
    requires i <= |t.entries| && Installed(st.fs, src, t, dst)
    ensures var out := LinkEntries(env, src, t, i, dst, st);
      out.Done? && out.state.fs == st.fs && st.log <= out.state.log &&
      AllUnchanged(out.state.log[|st.log|..])
    decreases t, 0, |t.entries| - i, 1
  {
    if i == |t.entries| {
      assert st.log[|st.log|..] == [];
    } else {
      var first := LinkEntry(env, src, t, i, dst, st);
      RerunEntry(env, src, t, i, dst, st);
      LinkEntriesNext(env, src, t, i, dst, st);
      RerunEntries(env, src, t, i + 1, dst, first.state);
      var out := LinkEntries(env, src, t, i, dst, st);
      assert out == LinkEntries(env, src, t, i + 1, dst, first.state);
      AllUnchangedChain(st.log, first.state.log, out.state.log);
    }
  }

  /** An installed entry is found in place. */
  lemma {:induction false} RerunEntry(env: Env, src: Path, t: Tree, i: nat, dst: Path, st: State)
    requires t.SourceDir? && env.srcRoot <= src && ClearOfSource(env, t, dst) && SourceApart(env, st.fs)
    requires i < |t.entries| && Installed(st.fs, src, t, dst)
    ensures var first := LinkEntry(env, src, t, i, dst, st);
      first.Done? && first.state.fs == st.fs && st.log <= first.state.log &&
      AllUnchanged(first.state.log[|st.log|..])
    decreases t, 0, 0, 0
  {
    var e := t.entries[i];
    assert EntryInstalled(st.fs, src, t, i, dst);
    if e.name == Marker {
      assert st.log[|st.log|..] == [];
    } else if Nested(e.node) {
      ApartClear(env, e.node, dst + [e.name]);
      RerunChangesNothing(env, src + [e.name], e.node, dst + [e.name], st);
    } else {
      LeafAlreadyLinked(env, st.fs, src, dst, e.name);
      LinkCases(env, st, src + [e.name], dst + [e.name]);
      AddedOne(st, LinkExists, dst + [e.name], NoReason);
    }
  }

  // ---------------------------------------------------------------------
  // A first run into free destinations installs the tree
  // ---------------------------------------------------------------------

  /**
    Nothing in the map lies at or below the destination of an entry from `i`
    on, the marker aside.
   */
  predicate EntriesFree(fs: Fs, t: Tree, i: nat, dst: Path)
    requires t.SourceDir?
  {
    forall p, j :: p in fs && i <= j < |t.entries| && t.entries[j].name != Marker ==>
      !(dst + [t.entries[j].name] <= p)
  }

  /** The system refuses nothing at or below the destination of an entry, the marker aside. */
  predicate EntriesAllowed(env: Env, t: Tree, dst: Path)
    requires t.SourceDir?
  {
    forall p, j :: p in env.faults && 0 <= j < |t.entries| && t.entries[j].name != Marker ==>
      !(dst + [t.entries[j].name] <= p)
  }

  /**
    Walking a tree into a destination that is an existing directory or can be
    created, where nothing is yet at or below the entries' own destinations
    and the system refuses nothing there, completes without a single
    `*.not-created` result and installs the tree. The destination may hold
    anything else, the source tree included.
   */
  lemma {:induction false} FirstRunInstalls(env: Env, src: Path, t: Tree, dst: Path, st: State)
    requires ValidTree(t) && t.SourceDir?
    requires env.srcRoot <= src && ClearOfSource(env, t, dst) && SourceApart(env, st.fs)
    requires EntriesFree(st.fs, t, 0, dst) && EntriesAllowed(env, t, dst)
    requires (dst in st.fs && st.fs[dst] == Dir) || CanCreate(env, st.fs, dst)
    ensures var out := LinkContents(env, src, t, dst, st);
      Clean(env, st, out) && Installed(out.state.fs, src, t, dst)
    decreases t, 1, 0, 0
  {
    var m := Materialize(env, st, dst);
    FreshDestination(env, t, dst, st);
    FirstRunEntries(env, src, t, 0, dst, m.state);
    var out := LinkContents(env, src, t, dst, st);
    assert out == LinkEntries(env, src, t, 0, dst, m.state);
    CleanChain(env, st, m, out);
  }

  /** A destination that is a directory or can be created is settled as a directory without failure. */
  lemma FreshDestination(env: Env, t: Tree, dst: Path, st: State)
    requires t.SourceDir?
    requires !(env.srcRoot <= dst) && SourceApart(env, st.fs)
    requires EntriesFree(st.fs, t, 0, dst)
    requires (dst in st.fs && st.fs[dst] == Dir) || CanCreate(env, st.fs, dst)
    ensures var m := Materialize(env, st, dst);
      Clean(env, st, m) && dst in m.state.fs && m.state.fs[dst] == Dir &&
      EntriesFree(m.state.fs, t, 0, dst)
  {
    var m := Materialize(env, st, dst);
    MaterializeCases(env, st, dst);
    if dst in st.fs && st.fs[dst] == Dir {
      StatDir(env, st.fs, dst);
      AddedOne(st, SubdirExists, dst, NoReason);
    } else {
      assert StatPath(env, st.fs, dst).Err?;
      assert m.state.log[|st.log|..] == [Record(SubdirCreated, dst, NoReason)];
      forall p, j | p in m.state.fs && 0 <= j < |t.entries| && t.entries[j].name != Marker
        ensures !(dst + [t.entries[j].name] <= p)
      {
        if p == dst {
          assert |dst + [t.entries[j].name]| > |p|;
        }
      }
    }
  }

  lemma {:induction false} FirstRunEntries(env: Env, src: Path, t: Tree, i: nat, dst: Path, st: State)
    requires ValidTree(t) && t.SourceDir? && i <= |t.entries|
    requires env.srcRoot <= src && ClearOfSource(env, t, dst) && SourceApart(env, st.fs)
    requires dst in st.fs && st.fs[dst] == Dir
    requires EntriesFree(st.fs, t, i, dst) && EntriesAllowed(env, t, dst)
    ensures var out := LinkEntries(env, src, t, i, dst, st);
      Clean(env, st, out) &&
      forall j :: i <= j < |t.entries| ==> EntryInstalled(out.state.fs, src, t, j, dst)
    decreases t, 0, |t.entries| - i, 1
  {
    if i == |t.entries| {
      assert st.log[|st.log|..] == [];
    } else {
      FirstRunEntriesStep(env, src, t, i, dst, st);
    }
  }

  /** Entry `i` and then the rest of the loop. */
  lemma {:induction false} FirstRunEntriesStep(env: Env, src: Path, t: Tree, i: nat, dst: Path, st: State)
    requires ValidTree(t) && t.SourceDir? && i < |t.entries|
    requires env.srcRoot <= src && ClearOfSource(env, t, dst) && SourceApart(env, st.fs)
    requires dst in st.fs && st.fs[dst] == Dir
    requires EntriesFree(st.fs, t, i, dst) && EntriesAllowed(env, t, dst)
    ensures var out := LinkEntries(env, src, t, i, dst, st);
      Clean(env, st, out) &&
      forall j :: i <= j < |t.entries| ==> EntryInstalled(out.state.fs, src, t, j, dst)
    decreases t, 0, |t.entries| - i, 0
  {
    var first := LinkEntry(env, src, t, i, dst, st);
    FirstRunEntry(env, src, t, i, dst, st);
    var rest := LinkEntries(env, src, t, i + 1, dst, first.state);
    LinkEntriesNext(env, src, t, i, dst, st);
    EntriesFreeAfter(st.fs, first.state.fs, t, i, dst);
    FirstRunEntries(env, src, t, i + 1, dst, first.state);
    var out := LinkEntries(env, src, t, i, dst, st);
    assert out == rest;
    InstalledStep(env, src, t, i, dst, st, first, out);
  }

  /** Chaining entry `i` with the entries after it. */
  lemma InstalledStep(env: Env, src: Path, t: Tree, i: nat, dst: Path, st: State, first: Outcome, rest: Outcome)
    requires t.SourceDir? && i < |t.entries|
    requires Clean(env, st, first) && EntryInstalled(first.state.fs, src, t, i, dst)
    requires Clean(env, first.state, rest) && Extends(first.state.fs, rest.state.fs)
    requires forall j :: i + 1 <= j < |t.entries| ==> EntryInstalled(rest.state.fs, src, t, j, dst)
    ensures Clean(env, st, rest)
    ensures forall j :: i <= j < |t.entries| ==> EntryInstalled(rest.state.fs, src, t, j, dst)
  {
    EntryInstalledExtends(first.state.fs, rest.state.fs, src, t, i, dst);
    CleanChain(env, st, first, rest);
  }

  /** What entry `i` adds lies below its own name, so the later entries stay free. */
  lemma EntriesFreeAfter(fs: Fs, fs': Fs, t: Tree, i: nat, dst: Path)
    requires ValidTree(t) && t.SourceDir? && i < |t.entries|
    requires EntriesFree(fs, t, i, dst) && Extends(fs, fs')
    requires forall p :: p in fs' && p !in fs ==> dst + [t.entries[i].name] <= p
    ensures EntriesFree(fs', t, i + 1, dst)
  {
    forall p, j | p in fs' && i + 1 <= j < |t.entries| && t.entries[j].name != Marker
      ensures !(dst + [t.entries[j].name] <= p)
    {
      if p !in fs {
        SiblingsApart(dst, t.entries[i].name, t.entries[j].name, p);
      }
    }
  }

  /** One entry of a free destination is linked or walked without failure. */
  lemma {:induction false} FirstRunEntry(env: Env, src: Path, t: Tree, i: nat, dst: Path, st: State)
    requires ValidTree(t) && t.SourceDir? && i < |t.entries|
    requires env.srcRoot <= src && ClearOfSource(env, t, dst) && SourceApart(env, st.fs)
    requires dst in st.fs && st.fs[dst] == Dir
    requires EntriesFree(st.fs, t, i, dst) && EntriesAllowed(env, t, dst)
    ensures var first := LinkEntry(env, src, t, i, dst, st);
      Clean(env, st, first) && EntryInstalled(first.state.fs, src, t, i, dst)
    decreases t, 0, 0, 0
  {
    var e := t.entries[i];
    var d := dst + [e.name];
    var first := LinkEntry(env, src, t, i, dst, st);
    if e.name == Marker {
      assert st.log[|st.log|..] == [];
    } else {
      assert Apart(env.srcRoot, d);
      assert forall p :: p in st.fs ==> !(d <= p);
      assert forall p :: p in env.faults ==> !(d <= p);
      StatDir(env, st.fs, dst);
      assert Parent(d) == dst;
      assert CanCreate(env, st.fs, d);
      if Nested(e.node) {
        assert ValidTree(e.node);
        ApartClear(env, e.node, d);
        ChildFree(env, st.fs, e.node, d);
        FirstRunInstalls(env, src + [e.name], e.node, d, st);
      } else {
        FreshLink(env, st, src + [e.name], d);
      }
    }
  }

  /** With nothing at or below `d`, nothing is at or below any entry of `d` either. */
  lemma ChildFree(env: Env, fs: Fs, t: Tree, d: Path)
    requires t.SourceDir?
    requires forall p :: p in fs ==> !(d <= p)
    requires forall p :: p in env.faults ==> !(d <= p)
    ensures EntriesFree(fs, t, 0, d) && EntriesAllowed(env, t, d)
  {
    forall p, j | (p in fs || p in env.faults) && 0 <= j < |t.entries|
      ensures !(d + [t.entries[j].name] <= p)
    {
      if d + [t.entries[j].name] <= p {
        BelowChild(d, t.entries[j].name, p);
      }
    }
  }

  /** Where a link can be created and nothing is yet, it is created outside the source tree. */
  lemma FreshLink(env: Env, st: State, target: Path, link: Path)
    requires CanCreate(env, st.fs, link) && !(env.srcRoot <= link) && SourceApart(env, st.fs)
    ensures var o := Link(env, st, target, link);
      Clean(env, st, o) && link in o.state.fs && o.state.fs[link] == Symlink(target)
  {
    LinkCases(env, st, target, link);
    var o := Link(env, st, target, link);
    assert !AlreadyLinked(env, st.fs, target, link);
    assert o.state.log[|st.log|..] == [Record(LinkCreated, link, NoReason)];
  }

  // ---------------------------------------------------------------------
  // Linking twice
  // ---------------------------------------------------------------------

  /**
    The linker is idempotent: a first run into a destination root that is a
    directory or can be created, with nothing yet where the source's entries
    go, completes without failures and installs the source tree; a second run
    completes, changes nothing, and its report is the no-changes message.
   */
  lemma RunTwice(env: Env, dstRoot: Path, fs: Fs)
    requires ValidTree(env.source) && env.source.SourceDir?
    requires ClearOfSource(env, env.source, dstRoot) && SourceApart(env, fs)
    requires EntriesFree(fs, env.source, 0, dstRoot) && EntriesAllowed(env, env.source, dstRoot)
    requires (dstRoot in fs && fs[dstRoot] == Dir) || CanCreate(env, fs, dstRoot)
    ensures var first := Run(env, dstRoot, fs);
      first.Done? && NoFailures(first.state.log) &&
      Installed(first.state.fs, env.srcRoot, env.source, dstRoot) &&
      var second := Run(env, dstRoot, first.state.fs);
      second.Done? && second.state.fs == first.state.fs && AllUnchanged(second.state.log) &&
      Summary(second.state.log) == NoChangesMessage
  {
    var st0 := State(fs, []);
    FirstRunInstalls(env, env.srcRoot, env.source, dstRoot, st0);
    var first := Run(env, dstRoot, fs);
    assert first.state.log[|st0.log|..] == first.state.log;
    var st1 := State(first.state.fs, []);
    RerunChangesNothing(env, env.srcRoot, env.source, dstRoot, st1);
    var second := Run(env, dstRoot, first.state.fs);
    assert second.state.log[|st1.log|..] == second.state.log;
    SummaryNoChanges(second.state.log);
  }

  /**
    The default layout: the home directory is `/u`, so the user name guessed
    from it is `u`, and the linker script sits in `/u/d`, so the dotfiles
    live in `/u/d/u`, inside the home they are linked into; the home already
    holds `/u/d`.
   */
  lemma HomeLayout(env: Env, fs: Fs)
    requires env == Env(["u", "d", "u"],
                        SourceDir([Entry(".bashrc", SourceFile("x")),
                                   Entry(".vim", SourceDir([Entry("vimrc", SourceFile("y"))]))]),
                        map[])
    requires fs == map[["u"] := Dir, ["u", "d"] := Dir]
    ensures var first := Run(env, ["u"], fs);
      first.Done? && NoFailures(first.state.log) &&
      var bashrc, vimrc := ["u"] + [".bashrc"], ["u"] + [".vim"] + ["vimrc"];
      bashrc in first.state.fs && first.state.fs[bashrc] == Symlink(env.srcRoot + [".bashrc"]) &&
      vimrc in first.state.fs && first.state.fs[vimrc] == Symlink(env.srcRoot + [".vim"] + ["vimrc"]) &&
      var second := Run(env, ["u"], first.state.fs);
      second.Done? && second.state.fs == first.state.fs &&
      Summary(second.state.log) == NoChangesMessage
  {
    var source := env.source;
    var vim := source.entries[1].node;
    HomeLayoutReady(env, fs);
    RunTwice(env, ["u"], fs);
    var first := Run(env, ["u"], fs);
    assert EntryInstalled(first.state.fs, env.srcRoot, source, 0, ["u"]);
    assert EntryInstalled(first.state.fs, env.srcRoot, source, 1, ["u"]);
    var vimDst := ["u"] + [".vim"];
    assert EntryInstalled(first.state.fs, env.srcRoot + [".vim"], vim, 0, vimDst);
    assert vim.entries[0] == Entry("vimrc", SourceFile("y")) && "vimrc" != Marker;
    assert vimDst + ["vimrc"] in first.state.fs;
  }

  /** The default layout meets the conditions of `RunTwice`. */
  lemma HomeLayoutReady(env: Env, fs: Fs)
    requires env == Env(["u", "d", "u"],
                        SourceDir([Entry(".bashrc", SourceFile("x")),
                                   Entry(".vim", SourceDir([Entry("vimrc", SourceFile("y"))]))]),
                        map[])
    requires fs == map[["u"] := Dir, ["u", "d"] := Dir]
    ensures ValidTree(env.source) && env.source.SourceDir? && Nested(env.source.entries[1].node)
    ensures ClearOfSource(env, env.source, ["u"]) && SourceApart(env, fs)
    ensures EntriesFree(fs, env.source, 0, ["u"]) && EntriesAllowed(env, env.source, ["u"])
    ensures ["u"] in fs && fs[["u"]] == Dir
  {
    var vim := env.source.entries[1].node;
    assert ValidTree(vim);
    assert !HasMarker(vim);
    assert ["u", ".bashrc"][1] != ["u", "d", "u"][1] && ["u", ".vim"][1] != ["u", "d", "u"][1];
  }

  /**
    A second run creates nothing: its results are the first run's with every
    `*.created` turned into `*.exists`. After a first run without failures it
    logs only `*.exists` results and reports that nothing changed.
   */
  lemma SecondRunCreatesNothing(env: Env, dstRoot: Path, fs: Fs)
    requires ValidTree(env.source)
    requires Run(env, dstRoot, fs).Done?
    ensures var first := Run(env, dstRoot, fs);
      var second := Run(env, dstRoot, first.state.fs);
      |second.state.log| == |first.state.log| &&
      forall m :: 0 <= m < |second.state.log| ==>
        second.state.log[m].path == first.state.log[m].path &&
        second.state.log[m].kind != SubdirCreated && second.state.log[m].kind != LinkCreated
    ensures var first := Run(env, dstRoot, fs);
      var second := Run(env, dstRoot, first.state.fs);
      NoFailures(first.state.log) ==>
        AllUnchanged(second.state.log) && Summary(second.state.log) == NoChangesMessage
  {
    var first := Run(env, dstRoot, fs);
    var second := Run(env, dstRoot, first.state.fs);
    SecondRunKeepsMap(env, dstRoot, fs);
    SettledLog(first.state.log, second.state.log);
  }

  /** What a settled log holds, and how it is reported. */
  lemma SettledLog(log: seq<Record>, log2: seq<Record>)
    requires log2 == SettleAll(log)
    ensures |log2| == |log| &&
      forall m :: 0 <= m < |log2| ==>
        log2[m].path == log[m].path && log2[m].kind != SubdirCreated && log2[m].kind != LinkCreated
    ensures NoFailures(log) ==> AllUnchanged(log2) && Summary(log2) == NoChangesMessage
  {
    if NoFailures(log) {
      assert forall m :: 0 <= m < |log2| ==> log2[m] == Settle(log[m]);
      SummaryNoChanges(log2);
    }
  }
}

=== FILE: linking.dfy ===
/** `Linker._link`: one idempotent, non-destructive attempt to create a link. */
module Linking {
  import opened Paths
  import opened FileSystem
  import opened Results

  /** `link` is already a symbolic link that resolves where `target` does. */
  predicate AlreadyLinked(env: Env, fs: Fs, target: Path, link: Path)
  {
    IsLink(env, fs, link) && RealPath(env, fs, link) == RealPath(env, fs, target)
  }

  /** `os.symlink(target, link)` would succeed. */
  predicate CanCreate(env: Env, fs: Fs, link: Path)
  {
    Lookup(env, fs, link).None? && StatPath(env, fs, Parent(link)) == Ok(Directory) &&
    link !in env.faults
  }

  /** The reason recorded when something is already at `link`. */
  function ConflictReason(env: Env, fs: Fs, target: Path, link: Path): string
  {
    if SameRegularContent(env, fs, target, link) then IdenticalFile else DifferentFile
  }

  /**
    Create a symbolic link at `link` that points to `target`, and log one
    `link.*` result for `link`. The only exception that escapes is the one
    `files_differ` raises when a conflicting path cannot be `stat`ed.
   */
  function Link(env: Env, st: State, target: Path, link: Path): (out: Outcome)
    // exactly one link.* result for `link`, appended to the log
    ensures out.Done? ==>
      |out.state.log| == |st.log| + 1 && out.state.log[..|st.log|] == st.log &&
      out.state.log[|st.log|].path == link && !IsSubdirKind(out.state.log[|st.log|].kind)
    // non-destructive: at most a link at the free path `link` is added
    ensures out.state.fs == st.fs || (link !in st.fs && out.state.fs == st.fs[link := Symlink(target)])
    // an escaping exception leaves everything as it was
    ensures out.Aborted? ==> out.state == st
  {
    if AlreadyLinked(env, st.fs, target, link) then
      Done(AddResult(st, LinkExists, link, NoReason))
    else
      match CreateEntry(env, st.fs, link, Symlink(target))
      case Ok(fs') => Done(AddResult(State(fs', st.log), LinkCreated, link, NoReason))
      case Err(e) => Refused(env, st, target, link, e)
  }

  /** The `except` clause of `_link`: `os.symlink` raised `e`. */
  function Refused(env: Env, st: State, target: Path, link: Path, e: OsError): (out: Outcome)
    ensures out.state.fs == st.fs
    ensures out.Done? ==>
      |out.state.log| == |st.log| + 1 &&
      out.state == AddResult(st, LinkNotCreated, link, out.state.log[|st.log|].reason)
    ensures out.Aborted? ==> out.state == st
  {
    if e.errno == EEXIST.errno then
      match FilesDiffer(env, st.fs, target, link)
      case Ok(differ) =>
        Done(AddResult(st, LinkNotCreated, link, Text(if differ then DifferentFile else IdenticalFile)))
      case Err(e') => Aborted(st, e')
    else
      Done(AddResult(st, LinkNotCreated, link, Raised(e)))
  }

  /**
    Which result `Link` logs: an existing correct link is left alone, a free
    and creatable place receives the link, an occupied place is reported as
    holding an identical or a different file and never changed (unless one of
    the two paths cannot be `stat`ed, which raises), and any other refusal is
    reported with the raised error. The map changes exactly when a link is
    created.
   */
  lemma LinkCases(env: Env, st: State, target: Path, link: Path)
    ensures var out := Link(env, st, target, link);
      out.Done? ==> (out.state.log[|st.log|].kind == LinkCreated <==> out.state.fs != st.fs)
    ensures var out := Link(env, st, target, link);
      AlreadyLinked(env, st.fs, target, link) ==>
      out == Done(AddResult(st, LinkExists, link, NoReason))
    ensures var out := Link(env, st, target, link);
      !AlreadyLinked(env, st.fs, target, link) && CanCreate(env, st.fs, link) ==>
      out.Done? && out.state.log[|st.log|] == Record(LinkCreated, link, NoReason) &&
      out.state.fs == st.fs[link := Symlink(target)]
    ensures var out := Link(env, st, target, link);
      !AlreadyLinked(env, st.fs, target, link) && Lookup(env, st.fs, link).Some? ==>
      out.state.fs == st.fs &&
      (out.Aborted? <==> StatPath(env, st.fs, target).Err? || StatPath(env, st.fs, link).Err?) &&
      (out.Done? ==>
         out.state.log[|st.log|] == Record(LinkNotCreated, link, Text(ConflictReason(env, st.fs, target, link))))
    ensures var out := Link(env, st, target, link);
      !AlreadyLinked(env, st.fs, target, link) && Lookup(env, st.fs, link).None? &&
      CreateEntry(env, st.fs, link, Symlink(target)).Err? &&
      CreateEntry(env, st.fs, link, Symlink(target)).error.errno != EEXIST.errno
      ==> out == Done(AddResult(st, LinkNotCreated, link, Raised(CreateEntry(env, st.fs, link, Symlink(target)).error)))
  {
  }

  /**
    Linking is idempotent: where nothing was, the first call creates the link
    and a second call with the same pair finds it and changes nothing.
   */
  lemma LinkTwice(env: Env, st: State, target: Path, link: Path)
    requires CanCreate(env, st.fs, link)
    requires target != link && !IsLink(env, st.fs, target)
    ensures var first := Link(env, st, target, link);
      first.Done? && first.state.log == st.log + [Record(LinkCreated, link, NoReason)] &&
      Lookup(env, first.state.fs, link) == Some(Symlink(target)) &&
      Link(env, first.state, target, link) == Done(AddResult(first.state, LinkExists, link, NoReason))
  {
    var fs' := st.fs[link := Symlink(target)];
    assert Lookup(env, fs', link) == Some(Symlink(target));
    assert Lookup(env, fs', target) == Lookup(env, st.fs, target);
    assert !IsLink(env, fs', target);
    FollowNonLink(env, fs', target, |fs'|);
    FollowNonLink(env, fs', target, |fs'| - 1);
    assert AlreadyLinked(env, fs', target, link);
  }
}

=== FILE: paths.dfy ===
/** Absolute paths, their textual form, and the string helpers the report needs. */
module Paths {

  type Name = string

  /** An absolute path, as the sequence of its components below "/". */
  type Path = seq<Name>

  /** The directory that contains `p`; the root is its own parent. */
  function Parent(p: Path): (r: Path)
    ensures |p| > 0 ==> p == r + [p[|p| - 1]]
    ensures |p| == 0 ==> r == p
  {
    if |p| == 0 then p else p[..|p| - 1]
  }

  /** What lies at or below `d + [n]` lies at or below `d`. */
  lemma BelowChild(d: Path, n: Name, p: Path)
    requires d + [n] <= p
    ensures d <= p
  {
    assert d == (d + [n])[..|d|] == p[..|d|];
  }

  /** Nothing lies below two differently named entries of one directory. */
  lemma SiblingsApart(dir: Path, m: Name, n: Name, p: Path)
    requires m != n && dir + [m] <= p
    ensures !(dir + [n] <= p)
  {
    assert p[|dir|] == (dir + [m])[|dir|] == m;
  }

  /** The text of a path as `os.path.join` builds it from an absolute root. */
  function Render(p: Path): string
  {
    if |p| == 0 then "/" else RenderComponents(p)
  }

  function RenderComponents(p: Path): string
  {
    if |p| == 0 then "" else "/" + p[0] + RenderComponents(p[1..])
  }

  /** `sep.join(parts)`. */
  function Join(parts: seq<string>, sep: string): (r: string)
    ensures |parts| == 0 ==> r == ""
    ensures |parts| > 0 ==> parts[0] <= r
  {
    if |parts| == 0 then ""
    else if |parts| == 1 then parts[0]
    else parts[0] + sep + Join(parts[1..], sep)
  }

  /** Decimal digits of `n`. */
  function NatToString(n: nat): string
  {
    if n < 10 then [Digit(n)] else NatToString(n / 10) + [Digit(n % 10)]
  }

  function Digit(d: nat): char
    requires d < 10
  {
    "0123456789"[d]
  }
}

=== FILE: report.dfy ===
/** `Linker.summary`: the report built from the result log. */
module Report {
  import opened Paths
  import opened FileSystem
  import opened Results

  const NoChangesMessage := "Everything is linked. No changes made."

  /** Python truthiness of the stored reason. */
  predicate Truthy(r: Reason)
  {
    match r
    case NoReason => false
    case Text(s) => s != ""
    case Raised(_) => true
  }

  /** How `format` prints the stored reason; an `OSError` prints as "[Errno N] text". */
  function ReasonText(r: Reason): string
  {
    match r
    case NoReason => "None"
    case Text(s) => s
    case Raised(e) => "[Errno " + NatToString(e.errno) + "] " + e.strerror
  }

  /** One indented report line: the path, then the reason in parentheses when there is one. */
  function Line(r: Record): string
  {
    "  " + Render(r.path) + (if Truthy(r.reason) then " (" + ReasonText(r.reason) + ")" else "")
  }

  /** The report lines of the results of type `k`, in log order. */
  function LinesOf(log: seq<Record>, k: Kind): seq<string>
  {
    if |log| == 0 then []
    else LinesOf(log[..|log| - 1], k) + (if log[|log| - 1].kind == k then [Line(log[|log| - 1])] else [])
  }

  /** The heading and lines of type `k`, when it has results and changed something. */
  function Section(log: seq<Record>, k: Kind): seq<string>
  {
    var ls := LinesOf(log, k);
    if |ls| > 0 && !Unchanged(k) then [Description(k)] + ls else []
  }

  function SectionsFrom(log: seq<Record>, kinds: seq<Kind>): seq<string>
  {
    if |kinds| == 0 then [] else Section(log, kinds[0]) + SectionsFrom(log, kinds[1..])
  }

  /** All report lines: the sections in the fixed order of the result types. */
  function SummaryLines(log: seq<Record>): seq<string>
  {
    SectionsFrom(log, ResultTypes)
  }

  /** `summary()`: the lines joined by newlines, or the no-changes message when there are none. */
  function Summary(log: seq<Record>): string
  {
    var s := Join(SummaryLines(log), "\n");
    if s == "" then NoChangesMessage else s
  }

  /** Every result logged changed nothing on disk. */
  predicate AllUnchanged(log: seq<Record>)
  {
    forall m :: 0 <= m < |log| ==> Unchanged(log[m].kind)
  }

  // ---------------------------------------------------------------------
  // Helper facts
  // ---------------------------------------------------------------------

  lemma {:induction false} LinesOfAppend(a: seq<Record>, b: seq<Record>, k: Kind)
    ensures LinesOf(a + b, k) == LinesOf(a, k) + LinesOf(b, k)
    decreases |b|
  {
    if |b| == 0 {
      assert a + b == a;
    } else {
      var b' := b[..|b| - 1];
      assert (a + b)[..|a + b| - 1] == a + b';
      assert (a + b)[|a + b| - 1] == b[|b| - 1];
      LinesOfAppend(a, b', k);
    }
  }

  lemma LinesOfOne(r: Record, k: Kind)
    ensures LinesOf([r], k) == if r.kind == k then [Line(r)] else []
  {
    assert [r][..0] == [];
  }

  lemma {:induction false} LinesOfNone(log: seq<Record>, k: Kind)
    requires forall m :: 0 <= m < |log| ==> log[m].kind != k
    ensures LinesOf(log, k) == []
    decreases |log|
  {
    if |log| > 0 {
      LinesOfNone(log[..|log| - 1], k);
    }
  }

  lemma {:induction false} LinesOfHold(log: seq<Record>, m: nat)
    requires m < |log|
    ensures Line(log[m]) in LinesOf(log, log[m].kind)
    decreases |log|
  {
    if m < |log| - 1 {
      LinesOfHold(log[..|log| - 1], m);
    }
  }

  lemma {:induction false} LinesOfFrom(log: seq<Record>, k: Kind, x: string)
    requires x in LinesOf(log, k)
    ensures exists m :: 0 <= m < |log| && log[m].kind == k && x == Line(log[m])
    decreases |log|
  {
    var init := log[..|log| - 1];
    if x in LinesOf(init, k) {
      LinesOfFrom(init, k, x);
      var m :| 0 <= m < |init| && init[m].kind == k && x == Line(init[m]);
      assert log[m] == init[m];
    } else {
      assert log[|log| - 1].kind == k && x == Line(log[|log| - 1]);
    }
  }

  lemma SectionsFromCons(log: seq<Record>, k: Kind, ks: seq<Kind>)
    ensures SectionsFrom(log, [k] + ks) == Section(log, k) + SectionsFrom(log, ks)
  {
    assert ([k] + ks)[1..] == ks;
  }

  lemma LinkSections(log: seq<Record>)
    ensures SectionsFrom(log, [LinkCreated, LinkExists, LinkNotCreated]) ==
      Section(log, LinkCreated) + Section(log, LinkNotCreated)
  {
    assert Section(log, LinkExists) == [];
    SectionsFromCons(log, LinkNotCreated, []);
    assert [LinkNotCreated] + [] == [LinkNotCreated];
    SectionsFromCons(log, LinkExists, [LinkNotCreated]);
    assert [LinkExists] + [LinkNotCreated] == [LinkExists, LinkNotCreated];
    SectionsFromCons(log, LinkCreated, [LinkExists, LinkNotCreated]);
    assert [LinkCreated] + [LinkExists, LinkNotCreated] == [LinkCreated, LinkExists, LinkNotCreated];
  }

  lemma SectionsSpelled(log: seq<Record>, ks: seq<Kind>)
    requires ks == [SubdirCreated] + ([SubdirExists] + ([SubdirNotCreated] + [LinkCreated, LinkExists, LinkNotCreated]))
    ensures SectionsFrom(log, ks) ==
      Section(log, SubdirCreated) + (Section(log, SubdirNotCreated) +
      (Section(log, LinkCreated) + Section(log, LinkNotCreated)))
  {
    var links: seq<Kind> := [LinkCreated, LinkExists, LinkNotCreated];
    LinkSections(log);
    assert Section(log, SubdirExists) == [];
    SectionsFromCons(log, SubdirNotCreated, links);
    SectionsFromCons(log, SubdirExists, [SubdirNotCreated] + links);
    SectionsFromCons(log, SubdirCreated, [SubdirExists] + ([SubdirNotCreated] + links));
  }

  /**
    The report lines are the sections of the four result types that change
    something, in the fixed order: subdirs created, subdirs not created,
    links created, links not created.
   */
  lemma SummaryLinesSpelled(log: seq<Record>)
    ensures SummaryLines(log) ==
      Section(log, SubdirCreated) + (Section(log, SubdirNotCreated) +
      (Section(log, LinkCreated) + Section(log, LinkNotCreated)))
  {
    SectionsSpelled(log, ResultTypes);
  }

  /** Logs that agree on the lines of every type that changed something have the same report. */
  lemma SummaryAgrees(l1: seq<Record>, l2: seq<Record>)
    requires forall k :: !Unchanged(k) ==> LinesOf(l1, k) == LinesOf(l2, k)
    ensures SummaryLines(l1) == SummaryLines(l2)
    ensures Summary(l1) == Summary(l2)
  {
    SummaryLinesSpelled(l1);
    SummaryLinesSpelled(l2);
    assert LinesOf(l1, SubdirCreated) == LinesOf(l2, SubdirCreated);
    assert LinesOf(l1, SubdirNotCreated) == LinesOf(l2, SubdirNotCreated);
    assert LinesOf(l1, LinkCreated) == LinesOf(l2, LinkCreated);
    assert LinesOf(l1, LinkNotCreated) == LinesOf(l2, LinkNotCreated);
  }

  /** Joined report lines that start with a heading are neither empty nor the no-changes message. */
  lemma JoinStartingWithHeading(lines: seq<string>, k: Kind)
    requires |lines| > 0 && lines[0] == Description(k)
    ensures Join(lines, "\n") != "" && Join(lines, "\n") != NoChangesMessage
  {
    var s := Join(lines, "\n");
    assert Description(k) <= s;
    assert |Description(k)| > 0;
    assert s[0] == Description(k)[0];
    assert NoChangesMessage[0] == 'E';
  }

  // ---------------------------------------------------------------------
  // What the report promises
  // ---------------------------------------------------------------------

  /** There are report lines exactly when some result changed something. */
  lemma SummaryLinesEmpty(log: seq<Record>)
    ensures SummaryLines(log) == [] <==> AllUnchanged(log)
  {
    SummaryLinesSpelled(log);
    if AllUnchanged(log) {
      LinesOfNone(log, SubdirCreated);
      LinesOfNone(log, SubdirNotCreated);
      LinesOfNone(log, LinkCreated);
      LinesOfNone(log, LinkNotCreated);
    } else {
      var m :| 0 <= m < |log| && !Unchanged(log[m].kind);
      LinesOfHold(log, m);
    }
  }

  /** The first report line is a heading. */
  lemma SummaryLinesHead(log: seq<Record>)
    requires SummaryLines(log) != []
    ensures exists k :: SummaryLines(log)[0] == Description(k)
  {
    SummaryLinesSpelled(log);
    var sc, snc := Section(log, SubdirCreated), Section(log, SubdirNotCreated);
    var lc := Section(log, LinkCreated);
    if |sc| > 0 {
      assert SummaryLines(log)[0] == Description(SubdirCreated);
    } else if |snc| > 0 {
      assert SummaryLines(log)[0] == Description(SubdirNotCreated);
    } else if |lc| > 0 {
      assert SummaryLines(log)[0] == Description(LinkCreated);
    } else {
      assert SummaryLines(log)[0] == Description(LinkNotCreated);
    }
  }

  /**
    The report is exactly the no-changes message if and only if every logged
    result is of a ".exists" type.
   */
  lemma SummaryNoChanges(log: seq<Record>)
    ensures Summary(log) == NoChangesMessage <==> AllUnchanged(log)
  {
    SummaryLinesEmpty(log);
    if !AllUnchanged(log) {
      SummaryLinesHead(log);
      var k :| SummaryLines(log)[0] == Description(k);
      JoinStartingWithHeading(SummaryLines(log), k);
    }
  }

  /** A result of a ".exists" type, wherever it is logged, leaves the report as it was. */
  lemma SummaryIgnoresUnchanged(a: seq<Record>, r: Record, b: seq<Record>)
    requires Unchanged(r.kind)
    ensures Summary(a + [r] + b) == Summary(a + b)
  {
    forall k | !Unchanged(k)
      ensures LinesOf(a + [r] + b, k) == LinesOf(a + b, k)
    {
      LinesOfMiddle(a, [r], b, k);
      LinesOfOne(r, k);
      LinesOfAppend(a, b, k);
      assert LinesOf(a, k) + [] == LinesOf(a, k);
    }
    SummaryAgrees(a + [r] + b, a + b);
  }

  lemma LinesOfMiddle(a: seq<Record>, m: seq<Record>, b: seq<Record>, k: Kind)
    ensures LinesOf(a + m + b, k) == LinesOf(a, k) + LinesOf(m, k) + LinesOf(b, k)
  {
    LinesOfAppend(a + m, b, k);
    LinesOfAppend(a, m, k);
  }

  lemma LinesOfSwap(a: seq<Record>, r: Record, s: Record, b: seq<Record>, k: Kind)
    requires r.kind != s.kind
    ensures LinesOf(a + [r, s] + b, k) == LinesOf(a + [s, r] + b, k)
  {
    LinesOfMiddle(a, [r, s], b, k);
    LinesOfMiddle(a, [s, r], b, k);
    LinesOfPair(r, s, k);
    LinesOfPair(s, r, k);
  }

  /**
    Headings follow the fixed order of the result types, not the log: two
    adjacent results of different types give the same report either way round.
   */
  lemma SummaryIgnoresOrderAcrossTypes(a: seq<Record>, r: Record, s: Record, b: seq<Record>)
    requires r.kind != s.kind
    ensures Summary(a + [r, s] + b) == Summary(a + [s, r] + b)
  {
    forall k | !Unchanged(k)
      ensures LinesOf(a + [r, s] + b, k) == LinesOf(a + [s, r] + b, k)
    {
      LinesOfSwap(a, r, s, b, k);
    }
    SummaryAgrees(a + [r, s] + b, a + [s, r] + b);
  }

  /** A line of one section is its heading or the line of a result of that type. */
  lemma SectionLine(log: seq<Record>, k: Kind, x: string)
    requires x in Section(log, k)
    ensures !Unchanged(k)
    ensures x == Description(k) ||
      exists m :: 0 <= m < |log| && log[m].kind == k && x == Line(log[m])
  {
    if x != Description(k) {
      LinesOfFrom(log, k, x);
    }
  }

  /**
    Every result that changed something is listed under its type's heading,
    and every report line is such a heading or the line of such a result.
   */
  lemma SummaryListsChanges(log: seq<Record>)
    ensures forall m :: 0 <= m < |log| && !Unchanged(log[m].kind) ==>
      Line(log[m]) in SummaryLines(log) && Description(log[m].kind) in SummaryLines(log)
    ensures forall x :: x in SummaryLines(log) ==>
      (exists k :: !Unchanged(k) && x == Description(k)) ||
      (exists m :: 0 <= m < |log| && !Unchanged(log[m].kind) && x == Line(log[m]))
  {
    SummaryLinesSpelled(log);
    forall m | 0 <= m < |log| && !Unchanged(log[m].kind)
      ensures Line(log[m]) in SummaryLines(log) && Description(log[m].kind) in SummaryLines(log)
    {
      LinesOfHold(log, m);
    }
    forall x | x in SummaryLines(log)
      ensures (exists k :: !Unchanged(k) && x == Description(k)) ||
              (exists m :: 0 <= m < |log| && !Unchanged(log[m].kind) && x == Line(log[m]))
    {
      var k;
      if x in Section(log, SubdirCreated) {
        k := SubdirCreated;
      } else if x in Section(log, SubdirNotCreated) {
        k := SubdirNotCreated;
      } else if x in Section(log, LinkCreated) {
        k := LinkCreated;
      } else {
        k := LinkNotCreated;
      }
      SectionLine(log, k, x);
    }
  }

  lemma JoinCons(x: string, rest: seq<string>, sep: string)
    requires |rest| > 0
    ensures Join([x] + rest, sep) == x + sep + Join(rest, sep)
  {
    assert ([x] + rest)[1..] == rest;
  }

  /** The lines of the log `[r1, r2]` of type `k`. */
  lemma LinesOfPair(r1: Record, r2: Record, k: Kind)
    ensures LinesOf([r1, r2], k) ==
      (if r1.kind == k then [Line(r1)] else []) + (if r2.kind == k then [Line(r2)] else [])
  {
    assert [r1] + [r2] == [r1, r2];
    LinesOfAppend([r1], [r2], k);
    LinesOfOne(r1, k);
    LinesOfOne(r2, k);
  }

  /** Lines `a`, `b`, `c`, `d` joined by newlines. */
  lemma JoinFour(a: string, b: string, c: string, d: string)
    ensures Join([a, b, c, d], "\n") == a + "\n" + b + "\n" + c + "\n" + d
  {
    JoinCons(c, [d], "\n");
    assert [c] + [d] == [c, d];
    JoinCons(b, [c, d], "\n");
    assert [b] + [c, d] == [b, c, d];
    JoinCons(a, [b, c, d], "\n");
    assert [a] + [b, c, d] == [a, b, c, d];
  }

  /** Lines `a`, `b`, `c` joined by newlines. */
  lemma JoinThree(a: string, b: string, c: string)
    ensures Join([a, b, c], "\n") == a + "\n" + b + "\n" + c
  {
    JoinCons(b, [c], "\n");
    assert [b] + [c] == [b, c];
    JoinCons(a, [b, c], "\n");
    assert [a] + [b, c] == [a, b, c];
  }

  lemma SectionOfPair(l: Record, d: Record, k: Kind)
    requires l.kind != d.kind && !Unchanged(k)
    ensures Section([l, d], k) ==
      if l.kind == k then [Description(k), Line(l)]
      else if d.kind == k then [Description(k), Line(d)]
      else []
  {
    LinesOfPair(l, d, k);
  }

  lemma HeadingOrderSections(l: Record, d: Record)
    requires l.kind == LinkCreated || l.kind == LinkNotCreated
    requires d.kind == SubdirCreated || d.kind == SubdirNotCreated
    ensures var log := [l, d];
      Section(log, SubdirCreated) + (Section(log, SubdirNotCreated) +
      (Section(log, LinkCreated) + Section(log, LinkNotCreated))) ==
      [Description(d.kind), Line(d), Description(l.kind), Line(l)]
  {
    var log := [l, d];
    var subdirs := [Description(d.kind), Line(d)];
    var links := [Description(l.kind), Line(l)];
    assert Section(log, SubdirCreated) + Section(log, SubdirNotCreated) == subdirs by {
      SectionOfPair(l, d, SubdirCreated);
      SectionOfPair(l, d, SubdirNotCreated);
    }
    assert Section(log, LinkCreated) + Section(log, LinkNotCreated) == links by {
      SectionOfPair(l, d, LinkCreated);
      SectionOfPair(l, d, LinkNotCreated);
    }
    assert subdirs + links == [Description(d.kind), Line(d), Description(l.kind), Line(l)];
  }

  lemma HeadingOrderLines(l: Record, d: Record)
    requires l.kind == LinkCreated || l.kind == LinkNotCreated
    requires d.kind == SubdirCreated || d.kind == SubdirNotCreated
    ensures SummaryLines([l, d]) == [Description(d.kind), Line(d), Description(l.kind), Line(l)]
  {
    SummaryLinesSpelled([l, d]);
    HeadingOrderSections(l, d);
  }

  /**
    The exact text for a link result and then a subdir result, both of which
    changed something: the subdir heading still comes first, and each heading
    is followed by its indented line.
   */
  lemma SummaryHeadingOrder(l: Record, d: Record)
    requires l.kind == LinkCreated || l.kind == LinkNotCreated
    requires d.kind == SubdirCreated || d.kind == SubdirNotCreated
    ensures Summary([l, d]) ==
      Description(d.kind) + "\n" + Line(d) + "\n" + Description(l.kind) + "\n" + Line(l)
  {
    HeadingOrderLines(l, d);
    JoinFour(Description(d.kind), Line(d), Description(l.kind), Line(l));
  }

  lemma LogOrderLines(r1: Record, r2: Record)
    requires r1.kind == r2.kind && !Unchanged(r1.kind)
    ensures SummaryLines([r1, r2]) == [Description(r1.kind), Line(r1), Line(r2)]
  {
    var log := [r1, r2];
    SummaryLinesSpelled(log);
    LinesOfPair(r1, r2, SubdirCreated);
    LinesOfPair(r1, r2, SubdirNotCreated);
    LinesOfPair(r1, r2, LinkCreated);
    LinesOfPair(r1, r2, LinkNotCreated);
    assert Section(log, r1.kind) == [Description(r1.kind), Line(r1), Line(r2)];
  }

  /** Within one heading, lines keep log order. */
  lemma SummaryLogOrderWithinType(r1: Record, r2: Record)
    requires r1.kind == r2.kind && !Unchanged(r1.kind)
    ensures Summary([r1, r2]) == Description(r1.kind) + "\n" + Line(r1) + "\n" + Line(r2)
  {
    LogOrderLines(r1, r2);
    JoinThree(Description(r1.kind), Line(r1), Line(r2));
  }

  // ---------------------------------------------------------------------
  // Order in logs of any length
  // ---------------------------------------------------------------------

  /** Two results of type `k` give lines of `k` in the order they were logged. */
  lemma {:induction false} LinesOfInOrder(log: seq<Record>, k: Kind, a: nat, b: nat)
    requires a < b < |log| && log[a].kind == k && log[b].kind == k
    ensures exists i, j ::
              0 <= i < j < |LinesOf(log, k)| &&
              LinesOf(log, k)[i] == Line(log[a]) && LinesOf(log, k)[j] == Line(log[b])
    decreases |log|
  {
    var init, last := log[..|log| - 1], log[|log| - 1];
    var before := LinesOf(init, k);
    assert LinesOf(log, k) == before + (if last.kind == k then [Line(last)] else []);
    if b < |log| - 1 {
      assert init[a] == log[a] && init[b] == log[b];
      LinesOfInOrder(init, k, a, b);
      var i, j :| 0 <= i < j < |before| && before[i] == Line(log[a]) && before[j] == Line(log[b]);
      assert LinesOf(log, k)[i] == Line(log[a]) && LinesOf(log, k)[j] == Line(log[b]);
    } else {
      assert init[a] == log[a] && last == log[b];
      LinesOfHold(init, a);
      var i :| 0 <= i < |before| && before[i] == Line(log[a]);
      assert LinesOf(log, k)[i] == Line(log[a]) && LinesOf(log, k)[|before|] == Line(log[b]);
    }
  }

  /** The sections that precede the section of `k` in the report. */
  function SectionsBefore(log: seq<Record>, k: Kind): seq<string>
  {
    match k
    case SubdirCreated => []
    case SubdirNotCreated => Section(log, SubdirCreated)
    case LinkCreated => Section(log, SubdirCreated) + Section(log, SubdirNotCreated)
    case LinkNotCreated =>
      Section(log, SubdirCreated) + Section(log, SubdirNotCreated) + Section(log, LinkCreated)
    case _ => []
  }

  /** The sections that follow the section of `k` in the report. */
  function SectionsAfter(log: seq<Record>, k: Kind): seq<string>
  {
    match k
    case SubdirCreated =>
      Section(log, SubdirNotCreated) + Section(log, LinkCreated) + Section(log, LinkNotCreated)
    case SubdirNotCreated => Section(log, LinkCreated) + Section(log, LinkNotCreated)
    case LinkCreated => Section(log, LinkNotCreated)
    case _ => []
  }

  /** Ways of grouping four consecutive parts. */
  lemma Regroup(a: seq<string>, b: seq<string>, c: seq<string>, d: seq<string>)
    ensures a + (b + (c + d)) == [] + a + (b + c + d)
    ensures a + (b + (c + d)) == a + b + (c + d)
    ensures a + (b + (c + d)) == (a + b) + c + d
    ensures a + (b + (c + d)) == (a + b + c) + d + []
  {
  }

  /** The report lines around the section of a type that changed something. */
  lemma SectionSplit(log: seq<Record>, k: Kind)
    requires !Unchanged(k)
    ensures SummaryLines(log) == SectionsBefore(log, k) + Section(log, k) + SectionsAfter(log, k)
  {
    SummaryLinesSpelled(log);
    Regroup(Section(log, SubdirCreated), Section(log, SubdirNotCreated),
      Section(log, LinkCreated), Section(log, LinkNotCreated));
  }

  /** A type that changed something and has results gets its heading followed by its lines. */
  lemma SectionFull(log: seq<Record>, k: Kind, m: nat)
    requires !Unchanged(k) && m < |log| && log[m].kind == k
    ensures Section(log, k) == [Description(k)] + LinesOf(log, k)
  {
    LinesOfHold(log, m);
  }

  /** Sections of changing types earlier in the order of the result types end before later ones start. */
  lemma SectionsBeforeOrdered(log: seq<Record>, x: nat, y: nat)
    requires x < y < |ResultTypes| && !Unchanged(ResultTypes[x]) && !Unchanged(ResultTypes[y])
    ensures |SectionsBefore(log, ResultTypes[x])| + |Section(log, ResultTypes[x])| <=
      |SectionsBefore(log, ResultTypes[y])|
  {
  }

  /** The first line of the middle part of `pre + s + post` sits right after `pre`. */
  lemma FirstOfMiddle(lines: seq<string>, pre: seq<string>, s: seq<string>, post: seq<string>)
    requires lines == pre + s + post && |s| > 0
    ensures |pre| < |lines| && lines[|pre|] == s[0]
  {
  }

  /**
    In a log of any length, the headings of two types that changed something
    and have results appear in the order of the result types, whatever order
    the results were logged in.
   */
  lemma SummaryHeadingsInOrder(log: seq<Record>, x: nat, y: nat, mx: nat, my: nat)
    requires x < y < |ResultTypes| && !Unchanged(ResultTypes[x]) && !Unchanged(ResultTypes[y])
    requires mx < |log| && log[mx].kind == ResultTypes[x]
    requires my < |log| && log[my].kind == ResultTypes[y]
    ensures exists i, j ::
              0 <= i < j < |SummaryLines(log)| &&
              SummaryLines(log)[i] == Description(ResultTypes[x]) &&
              SummaryLines(log)[j] == Description(ResultTypes[y])
  {
    var kx, ky := ResultTypes[x], ResultTypes[y];
    SectionFull(log, kx, mx);
    SectionFull(log, ky, my);
    SectionSplit(log, kx);
    SectionSplit(log, ky);
    FirstOfMiddle(SummaryLines(log), SectionsBefore(log, kx), Section(log, kx), SectionsAfter(log, kx));
    FirstOfMiddle(SummaryLines(log), SectionsBefore(log, ky), Section(log, ky), SectionsAfter(log, ky));
    SectionsBeforeOrdered(log, x, y);
  }

  /** Every line after position `lo`, up to and including `hi`, is one of `ls`. */
  predicate LinesBetweenIn(lines: seq<string>, lo: nat, hi: nat, ls: seq<string>)
    requires hi < |lines|
  {
    forall z :: lo < z <= hi ==> lines[z] in ls
  }

  /** Lines `ls` that follow `heading` lie after it, in order, with nothing else between. */
  lemma UnderHeading(lines: seq<string>, pre: seq<string>, heading: string, ls: seq<string>,
                     post: seq<string>, x: string, y: string, i: nat, j: nat)
    requires lines == pre + ([heading] + ls) + post
    requires i < j < |ls| && ls[i] == x && ls[j] == y
    ensures exists h, i', j' ::
              0 <= h < i' < j' < |lines| &&
              lines[h] == heading && lines[i'] == x && lines[j'] == y &&
              LinesBetweenIn(lines, h, j', ls)
  {
    var h := |pre|;
    assert lines[h] == heading;
    assert lines[h + 1 + i] == x && lines[h + 1 + j] == y;
    forall z | h < z <= h + 1 + j
      ensures lines[z] in ls
    {
      assert lines[z] == ls[z - h - 1];
    }
    assert LinesBetweenIn(lines, h, h + 1 + j, ls);
  }

  /** A line `x` of `ls` that follows `heading` lies after it, with nothing else between. */
  lemma UnderHeadingOne(lines: seq<string>, pre: seq<string>, heading: string, ls: seq<string>,
                        post: seq<string>, x: string, i: nat)
    requires lines == pre + ([heading] + ls) + post
    requires i < |ls| && ls[i] == x
    ensures exists h, i' ::
              0 <= h < i' < |lines| &&
              lines[h] == heading && lines[i'] == x && LinesBetweenIn(lines, h, i', ls)
  {
    var h := |pre|;
    assert lines[h] == heading;
    assert lines[h + 1 + i] == x;
    forall z | h < z <= h + 1 + i
      ensures lines[z] in ls
    {
      assert lines[z] == ls[z - h - 1];
    }
    assert LinesBetweenIn(lines, h, h + 1 + i, ls);
  }

  /**
    In a log of any length, every result that changed something is listed
    below its own type's heading, and every line from that heading down to it
    is a line of that type, so its line is not one of another section.
   */
  lemma SummaryLineUnderHeading(log: seq<Record>, m: nat)
    requires m < |log| && !Unchanged(log[m].kind)
    ensures exists h, i ::
              0 <= h < i < |SummaryLines(log)| &&
              SummaryLines(log)[h] == Description(log[m].kind) &&
              SummaryLines(log)[i] == Line(log[m]) &&
              LinesBetweenIn(SummaryLines(log), h, i, LinesOf(log, log[m].kind))
  {
    var k := log[m].kind;
    var ls := LinesOf(log, k);
    LinesOfHold(log, m);
    var i :| 0 <= i < |ls| && ls[i] == Line(log[m]);
    SectionFull(log, k, m);
    SectionSplit(log, k);
    UnderHeadingOne(SummaryLines(log), SectionsBefore(log, k), Description(k), ls, SectionsAfter(log, k),
      Line(log[m]), i);
  }

  /**
    In a log of any length, two results of one type that changed something
    are listed under that type's heading in the order they were logged, and
    every line from the heading down to the later one is a line of that type.
   */
  lemma SummaryLogOrder(log: seq<Record>, a: nat, b: nat)
    requires a < b < |log| && log[a].kind == log[b].kind && !Unchanged(log[a].kind)
    ensures exists h, i, j ::
              0 <= h < i < j < |SummaryLines(log)| &&
              SummaryLines(log)[h] == Description(log[a].kind) &&
              SummaryLines(log)[i] == Line(log[a]) && SummaryLines(log)[j] == Line(log[b]) &&
              LinesBetweenIn(SummaryLines(log), h, j, LinesOf(log, log[a].kind))
  {
    var k := log[a].kind;
    var ls := LinesOf(log, k);
    LinesOfInOrder(log, k, a, b);
    var i, j :| 0 <= i < j < |ls| && ls[i] == Line(log[a]) && ls[j] == Line(log[b]);
    SectionFull(log, k, a);
    SectionSplit(log, k);
    UnderHeading(SummaryLines(log), SectionsBefore(log, k), Description(k), ls, SectionsAfter(log, k),
      Line(log[a]), Line(log[b]), i, j);
  }
}

=== FILE: rerun.dfy ===
/**
  Running the linker again after any run that completed. Whatever the first
  run found and whatever it could not do, a second run over the map it left
  completes and changes nothing: every entry the first run created is found
  in place, and every place it could not use refuses again in the same way.
 */
module Rerun {
  import opened Paths
  import opened FileSystem
  import opened Results
  import opened Linking
  import opened Walk

  /** `t` is what the source tree holds at `src`. */
  predicate SourceAt(env: Env, src: Path, t: Tree)
  {
    env.srcRoot <= src && TreeAt(env.source, src[|env.srcRoot|..]) == Some(t)
  }

  /** Nothing that `fs'` holds beyond `fs` lies at or below `d`. */
  predicate NothingNewAt(fs: Fs, fs': Fs, d: Path)
  {
    forall p :: p in fs' && p !in fs ==> !(d <= p)
  }

  /** A source path is an existing entry that is not a link, in every map. */
  lemma SourceEntry(env: Env, fs: Fs, src: Path, t: Tree)
    requires SourceAt(env, src, t)
    ensures Lookup(env, fs, src).Some? && !IsLink(env, fs, src)
    ensures RealPath(env, fs, src) == src
  {
    FollowNonLink(env, fs, src, |fs|);
  }

  /** The entry `i` of the tree at `src` is what the tree holds at `src/name`. */
  lemma SourceChild(env: Env, src: Path, t: Tree, i: nat)
    requires SourceAt(env, src, t) && ValidTree(t) && t.SourceDir? && i < |t.entries|
    ensures SourceAt(env, src + [t.entries[i].name], t.entries[i].node)
  {
    var n := t.entries[i].name;
    TreeAtEntry(env.source, src[|env.srcRoot|..], t, i);
    assert (src + [n])[|env.srcRoot|..] == src[|env.srcRoot|..] + [n];
  }

  /**
    What a second run logs where the first logged `r`: a directory or link
    the first run created is found in place, and anything else is logged
    again as it was.
   */
  function Settle(r: Record): Record
  {
    match r.kind
    case SubdirCreated => Record(SubdirExists, r.path, NoReason)
    case LinkCreated => Record(LinkExists, r.path, NoReason)
    case _ => r
  }

  function SettleAll(log: seq<Record>): seq<Record>
  {
    seq(|log|, k requires 0 <= k < |log| => Settle(log[k]))
  }

  lemma SettleAppend(a: seq<Record>, b: seq<Record>)
    ensures SettleAll(a + b) == SettleAll(a) + SettleAll(b)
  {
    assert forall k :: 0 <= k < |a + b| ==> SettleAll(a + b)[k] == (SettleAll(a) + SettleAll(b))[k];
  }

  /** Two settled stretches of a log settle the whole stretch. */
  lemma LogsCompose(l0: seq<Record>, l1: seq<Record>, l2: seq<Record>, x: seq<Record>, y: seq<Record>, z: seq<Record>)
    requires l0 <= l1 <= l2
    requires y == x + SettleAll(l1[|l0|..]) && z == y + SettleAll(l2[|l1|..])
    ensures z == x + SettleAll(l2[|l0|..])
  {
    SliceSplit(l0, l1, l2);
    SettleAppend(l1[|l0|..], l2[|l1|..]);
  }

  // ---------------------------------------------------------------------
  // One call of `_link`
  // ---------------------------------------------------------------------

  /**
    `_link` on a map that grew from the result of a call that completed, with
    nothing new at `link`, completes too and leaves the map as it is: a link
    the first call found or created resolves to the target, and a place it
    could not use refuses in the same way.
   */
  lemma LinkSettled(env: Env, st: State, node: Tree, target: Path, link: Path, fs': Fs, log': seq<Record>)
    requires SourceAt(env, target, node)
    requires StatPath(env, st.fs, Parent(link)).Ok?
    requires Link(env, st, target, link).Done?
    requires Extends(Link(env, st, target, link).state.fs, fs')
    requires NothingNewAt(Link(env, st, target, link).state.fs, fs', link)
    ensures var o := Link(env, State(fs', log'), target, link);
      o.Done? && o.state.fs == fs'
    // the second call logs what the first logged, except that a link the
    // first call created is now found in place
    ensures var first := Link(env, st, target, link);
      var o := Link(env, State(fs', log'), target, link);
      o.state.log == log' + [if first.state.log[|st.log|].kind == LinkCreated
                             then Record(LinkExists, link, NoReason)
                             else first.state.log[|st.log|]]
  {
    var fs := st.fs;
    var st' := State(fs', log');
    SourceEntry(env, fs, target, node);
    SourceEntry(env, fs', target, node);
    ExtendsSize(fs, fs');
    if AlreadyLinked(env, fs, target, link) {
      FoundSettled(env, fs, target, link, fs');
    } else if CreateEntry(env, fs, link, Symlink(target)).Ok? {
      CreatedSettled(env, fs, target, link, fs');
    } else if Lookup(env, fs, link).Some? {
      OccupiedSettled(env, st, target, link, fs', log');
    } else {
      assert link !in fs;
      assert link !in fs';
      RefusedSettled(env, st, target, link, fs', log');
    }
  }

  /** What `LinkSettled` says about the log, in the form the walk composes. */
  lemma LinkLogSettled(env: Env, st: State, node: Tree, target: Path, link: Path, fs': Fs, log': seq<Record>)
    requires SourceAt(env, target, node)
    requires StatPath(env, st.fs, Parent(link)).Ok?
    requires Link(env, st, target, link).Done?
    requires Extends(Link(env, st, target, link).state.fs, fs')
    requires NothingNewAt(Link(env, st, target, link).state.fs, fs', link)
    ensures var o := Link(env, State(fs', log'), target, link);
      o.Done? && o.state.fs == fs' &&
      o.state.log == log' + SettleAll(Link(env, st, target, link).state.log[|st.log|..])
  {
    LinkSettled(env, st, node, target, link, fs', log');
    var first := Link(env, st, target, link);
    var rec := first.state.log[|st.log|];
    assert first.state.log[|st.log|..] == [rec];
    assert SettleAll([rec]) == [Settle(rec)];
  }

  /** A link the first call found in place is still found in place. */
  lemma FoundSettled(env: Env, fs: Fs, target: Path, link: Path, fs': Fs)
    requires Lookup(env, fs, target).Some? && !IsLink(env, fs, target)
    requires RealPath(env, fs, target) == target && RealPath(env, fs', target) == target
    requires AlreadyLinked(env, fs, target, link) && Extends(fs, fs')
    ensures AlreadyLinked(env, fs', target, link)
  {
    LookupExtends(env, fs, fs', link);
    ExtendsSize(fs, fs');
    FollowExtends(env, fs, fs', link, |fs|, |fs'|);
  }

  /** A link the first call created is found in place by the second. */
  lemma CreatedSettled(env: Env, fs: Fs, target: Path, link: Path, fs': Fs)
    requires !IsLink(env, fs', target)
    requires CreateEntry(env, fs, link, Symlink(target)).Ok?
    requires Extends(fs[link := Symlink(target)], fs')
    ensures AlreadyLinked(env, fs', target, link)
  {
    assert Lookup(env, fs, link).None?;
    assert link in fs' && fs'[link] == Symlink(target);
    assert Lookup(env, fs', link) == Some(Symlink(target)) by {
      if env.srcRoot <= link {
        assert TreeAt(env.source, link[|env.srcRoot|..]).None?;
      }
    }
    var n := |fs'|;
    assert n > 0 by {
      assert link in fs'.Keys;
    }
    assert Follow(env, fs', link, n) == Follow(env, fs', target, n - 1);
    FollowNonLink(env, fs', target, n - 1);
    FollowNonLink(env, fs', target, n);
  }

  /** A free place the system refused is still free, and refused in the same way. */
  lemma RefusedSettled(env: Env, st: State, target: Path, link: Path, fs': Fs, log': seq<Record>)
    requires StatPath(env, st.fs, Parent(link)).Ok?
    requires Lookup(env, st.fs, link).None? && CreateEntry(env, st.fs, link, Symlink(target)).Err?
    requires Link(env, st, target, link).Done? && Extends(st.fs, fs')
    requires link !in fs'
    ensures var o := Link(env, State(fs', log'), target, link);
      o.Done? && o.state.fs == fs' &&
      o.state.log == log' + [Link(env, st, target, link).state.log[|st.log|]]
  {
    var fs := st.fs;
    assert !AlreadyLinked(env, fs, target, link);
    assert Lookup(env, fs', link).None?;
    StatExtends(env, fs, fs', Parent(link));
    assert CreateEntry(env, fs', link, Symlink(target)) == CreateEntry(env, fs, link, Symlink(target));
  }

  /**
    A place that was occupied, and where `files_differ` answered, is still
    occupied, is still not the right link, and `files_differ` answers the same.
   */
  lemma OccupiedSettled(env: Env, st: State, target: Path, link: Path, fs': Fs, log': seq<Record>)
    requires !IsLink(env, st.fs, target) && !IsLink(env, fs', target)
    requires RealPath(env, st.fs, target) == target && RealPath(env, fs', target) == target
    requires Lookup(env, st.fs, link).Some? && !AlreadyLinked(env, st.fs, target, link)
    requires Link(env, st, target, link).Done? && Extends(st.fs, fs')
    ensures var o := Link(env, State(fs', log'), target, link);
      o.Done? && o.state.fs == fs' &&
      o.state.log == log' + [Link(env, st, target, link).state.log[|st.log|]]
  {
    var fs := st.fs;
    assert CreateEntry(env, fs, link, Symlink(target)) == Err(EEXIST);
    assert FilesDiffer(env, fs, target, link).Ok?;
    StatExtends(env, fs, fs', target);
    StatExtends(env, fs, fs', link);
    RealPathExtends(env, fs, fs', link);
    LookupExtends(env, fs, fs', link);
    assert !AlreadyLinked(env, fs', target, link);
  }

  // ---------------------------------------------------------------------
  // The walk
  // ---------------------------------------------------------------------

  /**
    Settling `dst` on a map that grew from a completed first settling finds
    `dst` as it was left: nothing is created and nothing raises.
   */
  lemma MaterializeSettled(env: Env, st: State, dst: Path, fs': Fs, log': seq<Record>)
    requires Materialize(env, st, dst).Done?
    requires Extends(Materialize(env, st, dst).state.fs, fs')
    ensures StatPath(env, Materialize(env, st, dst).state.fs, dst).Ok?
    ensures var m := Materialize(env, State(fs', log'), dst);
      m.Done? && m.state.fs == fs'
    // the same record, with a directory the first settling created now found
    ensures var m := Materialize(env, State(fs', log'), dst);
      m.state.log == log' + SettleAll(Materialize(env, st, dst).state.log[|st.log|..])
  {
    var m := Materialize(env, st, dst);
    var rec := m.state.log[|st.log|];
    assert m.state.log[|st.log|..] == [rec];
    assert SettleAll([rec]) == [Settle(rec)];
    if StatPath(env, st.fs, dst).Ok? {
      MaterializeFound(env, st, dst, fs', log');
    } else {
      MaterializeMade(env, st, dst, fs', log');
    }
  }

  /** A `dst` that `stat`ed the first time is logged the same way again. */
  lemma MaterializeFound(env: Env, st: State, dst: Path, fs': Fs, log': seq<Record>)
    requires StatPath(env, st.fs, dst).Ok?
    requires Extends(Materialize(env, st, dst).state.fs, fs')
    ensures StatPath(env, Materialize(env, st, dst).state.fs, dst).Ok?
    ensures Materialize(env, st, dst).Done? && |Materialize(env, st, dst).state.log| == |st.log| + 1
    ensures var m := Materialize(env, State(fs', log'), dst);
      m.Done? &&
      m.state == State(fs', log' + [Materialize(env, st, dst).state.log[|st.log|]])
  {
    var m := Materialize(env, st, dst);
    StatExtends(env, st.fs, m.state.fs, dst);
    StatExtends(env, st.fs, fs', dst);
  }

  /** A `dst` the first settling created is found as a directory by the second. */
  lemma MaterializeMade(env: Env, st: State, dst: Path, fs': Fs, log': seq<Record>)
    requires StatPath(env, st.fs, dst).Err? && Materialize(env, st, dst).Done?
    requires Extends(Materialize(env, st, dst).state.fs, fs')
    ensures StatPath(env, Materialize(env, st, dst).state.fs, dst).Ok?
    ensures |Materialize(env, st, dst).state.log| == |st.log| + 1 &&
      Materialize(env, st, dst).state.log[|st.log|] == Record(SubdirCreated, dst, NoReason)
    ensures var m := Materialize(env, State(fs', log'), dst);
      m == Done(State(fs', log' + [Record(SubdirExists, dst, NoReason)]))
  {
    var m := Materialize(env, st, dst);
    assert Lookup(env, m.state.fs, dst) == Some(Dir);
    FollowNonLink(env, m.state.fs, dst, MaxSymlinks);
    StatExtends(env, m.state.fs, fs', dst);
  }

  /** The entries from `i` on add nothing below the destination of an earlier entry. */
  lemma {:induction false} LoopAvoidsEarlier(env: Env, src: Path, t: Tree, i: nat, dst: Path, st: State)
    requires ValidTree(t) && t.SourceDir? && i <= |t.entries|
    ensures var out := LinkEntries(env, src, t, i, dst, st);
      forall p, k :: p in out.state.fs && p !in st.fs && 0 <= k < i ==>
        !(dst + [t.entries[k].name] <= p)
    decreases |t.entries| - i
  {
    if i < |t.entries| {
      var first := LinkEntry(env, src, t, i, dst, st);
      var out := LinkEntries(env, src, t, i, dst, st);
      if first.Done? {
        LoopAvoidsEarlier(env, src, t, i + 1, dst, first.state);
      }
      forall p, k | p in out.state.fs && p !in st.fs && 0 <= k < i
        ensures !(dst + [t.entries[k].name] <= p)
      {
        if p in first.state.fs {
          SiblingsApart(dst, t.entries[i].name, t.entries[k].name, p);
        }
      }
    }
  }

  /**
    A walk over a map that grew from the result of a completed walk, with
    nothing new at or below `dst`, completes and leaves the map as it is.
   */
  lemma {:induction false} WalkSettled(env: Env, src: Path, t: Tree, dst: Path, st: State, fs': Fs, log': seq<Record>)
    requires ValidTree(t) && SourceAt(env, src, t)
    requires LinkContents(env, src, t, dst, st).Done?
    requires Extends(LinkContents(env, src, t, dst, st).state.fs, fs')
    requires NothingNewAt(LinkContents(env, src, t, dst, st).state.fs, fs', dst)
    ensures var o := LinkContents(env, src, t, dst, State(fs', log'));
      o.Done? && o.state.fs == fs'
    ensures var o := LinkContents(env, src, t, dst, State(fs', log'));
      o.state.log == log' + SettleAll(LinkContents(env, src, t, dst, st).state.log[|st.log|..])
    decreases t, 1, 0
  {
    var m := Materialize(env, st, dst);
    var out := LinkContents(env, src, t, dst, st);
    assert out == LinkEntries(env, src, t, 0, dst, m.state);
    MaterializeSettled(env, st, dst, fs', log');
    var m' := Materialize(env, State(fs', log'), dst);
    EntriesSettled(env, src, t, 0, dst, m.state, fs', m'.state.log);
    assert m'.state == State(fs', m'.state.log);
    var o := LinkContents(env, src, t, dst, State(fs', log'));
    LogsCompose(st.log, m.state.log, out.state.log, log', m'.state.log, o.state.log);
  }

  lemma {:induction false} EntriesSettled(env: Env, src: Path, t: Tree, i: nat, dst: Path, st: State, fs': Fs, log': seq<Record>)
    requires ValidTree(t) && t.SourceDir? && i <= |t.entries| && SourceAt(env, src, t)
    requires StatPath(env, st.fs, dst).Ok?
    requires LinkEntries(env, src, t, i, dst, st).Done?
    requires Extends(LinkEntries(env, src, t, i, dst, st).state.fs, fs')
    requires NothingNewAt(LinkEntries(env, src, t, i, dst, st).state.fs, fs', dst)
    ensures var o := LinkEntries(env, src, t, i, dst, State(fs', log'));
      o.Done? && o.state.fs == fs'
    ensures var o := LinkEntries(env, src, t, i, dst, State(fs', log'));
      o.state.log == log' + SettleAll(LinkEntries(env, src, t, i, dst, st).state.log[|st.log|..])
    decreases t, 0, |t.entries| - i, 1
  {
    if i < |t.entries| {
      EntriesSettledStep(env, src, t, i, dst, st, fs', log');
    }
  }

  /** Entry `i` and then the rest of the loop. */
  lemma {:induction false} EntriesSettledStep(env: Env, src: Path, t: Tree, i: nat, dst: Path, st: State, fs': Fs, log': seq<Record>)
    requires ValidTree(t) && t.SourceDir? && i < |t.entries| && SourceAt(env, src, t)
    requires StatPath(env, st.fs, dst).Ok?
    requires LinkEntries(env, src, t, i, dst, st).Done?
    requires Extends(LinkEntries(env, src, t, i, dst, st).state.fs, fs')
    requires NothingNewAt(LinkEntries(env, src, t, i, dst, st).state.fs, fs', dst)
    ensures var o := LinkEntries(env, src, t, i, dst, State(fs', log'));
      o.Done? && o.state.fs == fs'
    ensures var o := LinkEntries(env, src, t, i, dst, State(fs', log'));
      o.state.log == log' + SettleAll(LinkEntries(env, src, t, i, dst, st).state.log[|st.log|..])
    decreases t, 0, |t.entries| - i, 0
  {
    var name := t.entries[i].name;
    var first := LinkEntry(env, src, t, i, dst, st);
    var out := LinkEntries(env, src, t, i, dst, st);
    LinkEntriesNext(env, src, t, i, dst, st);
    LoopAvoidsEarlier(env, src, t, i + 1, dst, first.state);
    forall p | p in fs' && p !in first.state.fs
      ensures !(dst + [name] <= p)
    {
      if p !in out.state.fs && dst + [name] <= p {
        BelowChild(dst, name, p);
      }
    }
    EntrySettled(env, src, t, i, dst, st, fs', log');
    var first' := LinkEntry(env, src, t, i, dst, State(fs', log'));
    LinkEntriesNext(env, src, t, i, dst, State(fs', log'));
    StatExtends(env, st.fs, first.state.fs, dst);
    EntriesSettled(env, src, t, i + 1, dst, first.state, fs', first'.state.log);
    assert first'.state == State(fs', first'.state.log);
    var o := LinkEntries(env, src, t, i, dst, State(fs', log'));
    LogsCompose(st.log, first.state.log, out.state.log, log', first'.state.log, o.state.log);
  }

  /** One entry: the marker does nothing, a directory is walked, anything else is linked. */
  lemma {:induction false} EntrySettled(env: Env, src: Path, t: Tree, i: nat, dst: Path, st: State, fs': Fs, log': seq<Record>)
    requires ValidTree(t) && t.SourceDir? && i < |t.entries| && SourceAt(env, src, t)
    requires StatPath(env, st.fs, dst).Ok?
    requires LinkEntry(env, src, t, i, dst, st).Done?
    requires Extends(LinkEntry(env, src, t, i, dst, st).state.fs, fs')
    requires NothingNewAt(LinkEntry(env, src, t, i, dst, st).state.fs, fs', dst + [t.entries[i].name])
    ensures var o := LinkEntry(env, src, t, i, dst, State(fs', log'));
      o.Done? && o.state.fs == fs'
    ensures var o := LinkEntry(env, src, t, i, dst, State(fs', log'));
      o.state.log == log' + SettleAll(LinkEntry(env, src, t, i, dst, st).state.log[|st.log|..])
    decreases t, 0, 0
  {
    var e := t.entries[i];
    if e.name != Marker {
      SourceChild(env, src, t, i);
      if Nested(e.node) {
        assert ValidTree(e.node);
        WalkSettled(env, src + [e.name], e.node, dst + [e.name], st, fs', log');
      } else {
        assert Parent(dst + [e.name]) == dst;
        LinkLogSettled(env, st, e.node, src + [e.name], dst + [e.name], fs', log');
      }
    } else {
      assert LinkEntry(env, src, t, i, dst, st).state.log[|st.log|..] == [];
    }
  }

  // ---------------------------------------------------------------------
  // Two runs
  // ---------------------------------------------------------------------

  /**
    Idempotence after any completed run: whatever the destination held and
    whatever the first run could not do, a second run over the map it left
    completes and changes nothing.
   */
  lemma SecondRunKeepsMap(env: Env, dstRoot: Path, fs: Fs)
    requires ValidTree(env.source)
    requires Run(env, dstRoot, fs).Done?
    ensures var first := Run(env, dstRoot, fs);
      var second := Run(env, dstRoot, first.state.fs);
      second.Done? && second.state.fs == first.state.fs &&
      second.state.log == SettleAll(first.state.log)
  {
    var first := Run(env, dstRoot, fs);
    assert env.srcRoot[|env.srcRoot|..] == [];
    WalkSettled(env, env.srcRoot, env.source, dstRoot, State(fs, []), first.state.fs, []);
  }
}

=== FILE: results.dfy ===
/**
  The result log of a linking run: six closed result types, records of what
  happened at which path, and the state that the linker threads through.
 */
module Results {
  import opened Paths
  import opened FileSystem

  /** The result types, in the order the report lists them. */
  datatype Kind =
    | SubdirCreated | SubdirExists | SubdirNotCreated
    | LinkCreated | LinkExists | LinkNotCreated

  const ResultTypes: seq<Kind> :=
    [SubdirCreated, SubdirExists, SubdirNotCreated, LinkCreated, LinkExists, LinkNotCreated]

  /** The name the log and the progress output use for a result type. */
  function TypeName(k: Kind): string
  {
    match k
    case SubdirCreated => "subdir.created"
    case SubdirExists => "subdir.exists"
    case SubdirNotCreated => "subdir.not-created"
    case LinkCreated => "link.created"
    case LinkExists => "link.exists"
    case LinkNotCreated => "link.not-created"
  }

  /** The heading the report gives a result type. */
  function Description(k: Kind): string
  {
    match k
    case SubdirCreated => "Subdirs created"
    case SubdirExists => "Subdirs already created"
    case SubdirNotCreated => "Subdirs not created"
    case LinkCreated => "Links created"
    case LinkExists => "Links already created"
    case LinkNotCreated => "Links not created"
  }

  predicate EndsWith(s: string, suffix: string)
  {
    |suffix| <= |s| && s[|s| - |suffix|..] == suffix
  }

  /** A result type under which nothing on disk changed, so the report leaves it out. */
  predicate Unchanged(k: Kind)
  {
    k == SubdirExists || k == LinkExists
  }

  /** The report tells these types apart by name: they are the ones whose name ends in ".exists". */
  lemma UnchangedByName(k: Kind)
    ensures Unchanged(k) <==> EndsWith(TypeName(k), ".exists")
  {
    var n := TypeName(k);
    if !Unchanged(k) {
      assert n[|n| - 1] == 'd';
    }
  }

  predicate IsSubdirKind(k: Kind)
  {
    k == SubdirCreated || k == SubdirExists || k == SubdirNotCreated
  }

  /**
    Why a result happened. `Raised` is an exception object, which Python
    treats as true however it prints; `Text` is true when non-empty.
   */
  datatype Reason = NoReason | Text(text: string) | Raised(error: OsError)

  const DifferentFile := "a different file already exists"
  const IdenticalFile := "an identical file already exists"
  const SomethingExists := "something already exists here"

  datatype Record = Record(kind: Kind, path: Path, reason: Reason)

  /** The destination map and the result log so far. */
  datatype State = State(fs: Fs, log: seq<Record>)

  /**
    How a step ends: normally, or with an exception that escapes the linker,
    carrying whatever had been logged and created when it was raised.
   */
  datatype Outcome = Done(state: State) | Aborted(state: State, error: OsError)

  /** `_add_result`: remember that `kind` happened at `path`. */
  function AddResult(st: State, kind: Kind, path: Path, reason: Reason): (st': State)
    ensures st'.fs == st.fs
    ensures |st'.log| == |st.log| + 1 && st'.log[..|st.log|] == st.log
    ensures st'.log[|st.log|] == Record(kind, path, reason)
  {
    State(st.fs, st.log + [Record(kind, path, reason)])
  }
}

=== FILE: walk.dfy ===
/**
  `Linker._link_contents` and `Linker.run`: the recursive walk over the
  source tree. A directory without the marker file is recreated at the
  destination and its contents are linked one by one; every other entry,
  a directory carrying the marker included, is linked as a whole.
 */
module Walk {
  import opened Paths
  import opened FileSystem
  import opened Results
  import opened Linking

  /** The name of the marker file. */
  const Marker: Name := ".dotfiles-subdir"

  predicate HasMarker(t: Tree)
  {
    t.SourceDir? && exists i :: 0 <= i < |t.entries| && t.entries[i].name == Marker
  }

  /** A source directory the walk descends into rather than links. */
  predicate Nested(t: Tree)
  {
    t.SourceDir? && !HasMarker(t)
  }

  /**
    The first half of `_link_contents`: make sure `dst` is a directory and
    log one `subdir.*` result for it. An `os.mkdir` that fails raises.
   */
  function Materialize(env: Env, st: State, dst: Path): (out: Outcome)
    ensures st.log <= out.state.log
    ensures Extends(st.fs, out.state.fs)
    ensures forall p :: p in out.state.fs && p !in st.fs ==> p == dst
    ensures out.Aborted? ==> out.state == st
  {
    match StatPath(env, st.fs, dst)
    case Ok(Directory) => Done(AddResult(st, SubdirExists, dst, NoReason))
    case Ok(Regular(_)) => Done(AddResult(st, SubdirNotCreated, dst, Text(SomethingExists)))
    case Err(_) =>
      match CreateEntry(env, st.fs, dst, Dir)
      case Ok(fs') => Done(AddResult(State(fs', st.log), SubdirCreated, dst, NoReason))
      case Err(e) => Aborted(st, e)
  }

  /**
    How `dst` is settled: an existing directory is logged as existing, any
    other path that `stat`s as not created with a reason, and a missing path
    is created when `os.mkdir` can create it; otherwise its error escapes and
    nothing is logged.
   */
  lemma MaterializeCases(env: Env, st: State, dst: Path)
    ensures var out := Materialize(env, st, dst);
      StatPath(env, st.fs, dst) == Ok(Directory) ==>
      out == Done(AddResult(st, SubdirExists, dst, NoReason))
    ensures var out := Materialize(env, st, dst);
      StatPath(env, st.fs, dst).Ok? && StatPath(env, st.fs, dst).value.Regular? ==>
      out == Done(AddResult(st, SubdirNotCreated, dst, Text(SomethingExists)))
    ensures var out := Materialize(env, st, dst);
      StatPath(env, st.fs, dst).Err? ==>
      (out.Done? <==> CanCreate(env, st.fs, dst)) &&
      (out.Done? ==> out.state == State(st.fs[dst := Dir], st.log + [Record(SubdirCreated, dst, NoReason)])) &&
      (out.Aborted? ==> out.error == CreateEntry(env, st.fs, dst, Dir).error)
  {
  }

  /**
    `_link_contents(src, dst)` where `t` is what `src` holds. Listing a
    source path that is not a directory raises ENOTDIR.
   */
  function LinkContents(env: Env, src: Path, t: Tree, dst: Path, st: State): (out: Outcome)
    ensures st.log <= out.state.log
    ensures Extends(st.fs, out.state.fs)
    ensures forall p :: p in out.state.fs && p !in st.fs ==> dst <= p
    decreases t, 1, 0
  {
    var m := Materialize(env, st, dst);
    if m.Aborted? then m
    else if t.SourceFile? then Aborted(m.state, ENOTDIR)
    else LinkEntries(env, src, t, 0, dst, m.state)
  }

  /** The loop of `_link_contents` over the entries of `t` from position `i`. */
  function LinkEntries(env: Env, src: Path, t: Tree, i: nat, dst: Path, st: State): (out: Outcome)
    requires t.SourceDir? && i <= |t.entries|
    ensures st.log <= out.state.log
    ensures Extends(st.fs, out.state.fs)
    ensures forall p :: p in out.state.fs && p !in st.fs ==> dst < p
    decreases t, 0, |t.entries| - i
  {
    if i == |t.entries| then Done(st)
    else
      var first := LinkEntry(env, src, t, i, dst, st);
      if first.Aborted? then first
      else LinkEntries(env, src, t, i + 1, dst, first.state)
  }

  /**
    One pass of that loop, for entry `i`: the marker is skipped, a directory
    without the marker is walked, and anything else is linked.
   */
  function LinkEntry(env: Env, src: Path, t: Tree, i: nat, dst: Path, st: State): (out: Outcome)
    requires t.SourceDir? && i < |t.entries|
    ensures st.log <= out.state.log
    ensures Extends(st.fs, out.state.fs)
    ensures forall p :: p in out.state.fs && p !in st.fs ==> dst + [t.entries[i].name] <= p
    decreases t, 0, 0
  {
    var e := t.entries[i];
    if e.name == Marker then Done(st)
    else if Nested(e.node) then LinkContents(env, src + [e.name], e.node, dst + [e.name], st)
    else Link(env, st, src + [e.name], dst + [e.name])
  }

  /** After an entry that completes, the loop goes on with the next one. */
  lemma LinkEntriesNext(env: Env, src: Path, t: Tree, i: nat, dst: Path, st: State)
    requires t.SourceDir? && i < |t.entries| && LinkEntry(env, src, t, i, dst, st).Done?
    ensures LinkEntries(env, src, t, i, dst, st) ==
      LinkEntries(env, src, t, i + 1, dst, LinkEntry(env, src, t, i, dst, st).state)
  {
  }

  /** `Linker(src, dst).run()`: one walk from the roots, with an empty log. */
  function Run(env: Env, dstRoot: Path, fs: Fs): (out: Outcome)
    ensures Extends(fs, out.state.fs)
    ensures forall p :: p in out.state.fs && p !in fs ==> dstRoot <= p
  {
    LinkContents(env, env.srcRoot, env.source, dstRoot, State(fs, []))
  }

  /**
    The first thing a walk does is settle `dst`: an existing directory is
    logged as existing, anything else that `stat`s is logged as not created
    and left alone, and a missing path is created as a directory; when that
    `os.mkdir` fails, its error escapes before anything is logged.
   */
  lemma WalkStartsWithDestination(env: Env, src: Path, t: Tree, dst: Path, st: State)
    ensures var out := LinkContents(env, src, t, dst, st);
      var s := StatPath(env, st.fs, dst);
      (s == Ok(Directory) ==>
         |out.state.log| > |st.log| && out.state.log[|st.log|] == Record(SubdirExists, dst, NoReason)) &&
      (s.Ok? && s.value.Regular? ==>
         |out.state.log| > |st.log| &&
         out.state.log[|st.log|] == Record(SubdirNotCreated, dst, Text(SomethingExists))) &&
      (s.Err? && CanCreate(env, st.fs, dst) ==>
         |out.state.log| > |st.log| && out.state.log[|st.log|] == Record(SubdirCreated, dst, NoReason) &&
         dst !in st.fs && dst in out.state.fs && out.state.fs[dst] == Dir) &&
      (s.Err? && !CanCreate(env, st.fs, dst) ==>
         out == Aborted(st, CreateEntry(env, st.fs, dst, Dir).error))
  {
    var m := Materialize(env, st, dst);
    var out := LinkContents(env, src, t, dst, st);
    if m.Done? {
      assert m.state.log <= out.state.log;
      assert Extends(m.state.fs, out.state.fs);
      if StatPath(env, st.fs, dst).Err? {
        assert CreateEntry(env, st.fs, dst, Dir).Ok?;
      }
    }
  }

  /**
    A destination whose parent is a regular file cannot be created: `os.mkdir`
    raises ENOTDIR and the walk ends with nothing logged.
   */
  lemma SubdirUnderFileAborts(env: Env, src: Path, t: Tree, dst: Path, st: State)
    requires Lookup(env, st.fs, dst).None?
    requires StatPath(env, st.fs, Parent(dst)).Ok? && StatPath(env, st.fs, Parent(dst)).value.Regular?
    ensures LinkContents(env, src, t, dst, st) == Aborted(st, ENOTDIR)
  {
    assert StatPath(env, st.fs, dst).Err?;
  }

  /**
    A dangling symbolic link at the destination does not `stat`, so the walk
    tries `os.mkdir`, which raises EEXIST because the link itself is there.
   */
  lemma DanglingDestinationAborts(env: Env, src: Path, t: Tree, dst: Path, st: State)
    requires IsLink(env, st.fs, dst) && StatPath(env, st.fs, dst).Err?
    ensures LinkContents(env, src, t, dst, st) == Aborted(st, EEXIST)
  {
  }

  /**
    A destination whose missing parent lies below a regular file cannot be
    created either: `stat` of the parent raises ENOTDIR, so `os.mkdir` does.
   */
  lemma DeepUnderFileAborts(env: Env, src: Path, t: Tree, dst: Path, st: State)
    requires Lookup(env, st.fs, dst).None? && Lookup(env, st.fs, Parent(dst)).None?
    requires UnderFile(env, st.fs, Parent(dst))
    ensures LinkContents(env, src, t, dst, st) == Aborted(st, ENOTDIR)
  {
    assert StatPath(env, st.fs, dst).Err?;
    assert StatPath(env, st.fs, Parent(dst)) == Err(ENOTDIR);
  }

  /** Walking a source path that is a regular file raises ENOTDIR once `dst` is settled. */
  lemma SourceFileAborts(env: Env, src: Path, t: Tree, dst: Path, st: State)
    requires t.SourceFile?
    ensures var out := LinkContents(env, src, t, dst, st);
      out.Aborted? && out.state == Materialize(env, st, dst).state &&
      (Materialize(env, st, dst).Done? ==> out.error == ENOTDIR)
  {
  }

  // ---------------------------------------------------------------------
  // Which results a walk logs, independently of what is on disk
  // ---------------------------------------------------------------------

  /** A logged result with its outcome forgotten: its category and path. */
  datatype Step = SubdirStep(path: Path) | LinkStep(path: Path)

  function Shape(r: Record): Step
  {
    if IsSubdirKind(r.kind) then SubdirStep(r.path) else LinkStep(r.path)
  }

  function Shapes(log: seq<Record>): (s: seq<Step>)
    ensures |s| == |log|
    ensures forall k :: 0 <= k < |log| ==> s[k] == Shape(log[k])
  {
    seq(|log|, k requires 0 <= k < |log| => Shape(log[k]))
  }

  lemma ShapesAppend(a: seq<Record>, b: seq<Record>)
    ensures Shapes(a + b) == Shapes(a) + Shapes(b)
  {
  }

  /**
    The results a walk of `t` into `dst` logs, in order: one subdir result
    for `dst`, then for each entry in listing order nothing for the marker,
    the results of the nested walk for a directory without the marker, and
    one link result for anything else.
   */
  function Plan(t: Tree, dst: Path): seq<Step>
    decreases t, 1, 0
  {
    [SubdirStep(dst)] + (if t.SourceDir? then PlanEntries(t, 0, dst) else [])
  }

  function PlanEntries(t: Tree, i: nat, dst: Path): seq<Step>
    requires t.SourceDir? && i <= |t.entries|
    decreases t, 0, |t.entries| - i
  {
    if i == |t.entries| then []
    else EntryPlan(t, i, dst) + PlanEntries(t, i + 1, dst)
  }

  function EntryPlan(t: Tree, i: nat, dst: Path): seq<Step>
    requires t.SourceDir? && i < |t.entries|
    decreases t, 0, 0
  {
    var e := t.entries[i];
    if e.name == Marker then []
    else if Nested(e.node) then Plan(e.node, dst + [e.name])
    else [LinkStep(dst + [e.name])]
  }

  /** The log a walk appends, forgetting outcomes. */
  function NewSteps(st: State, out: Outcome): seq<Step>
    requires st.log <= out.state.log
  {
    Shapes(out.state.log[|st.log|..])
  }

  lemma SliceSplit(a: seq<Record>, b: seq<Record>, c: seq<Record>)
    requires a <= b <= c
    ensures c[|a|..] == b[|a|..] + c[|b|..]
  {
  }

  /** Chaining two steps chains what they log. */
  lemma NewStepsChain(s0: State, o1: Outcome, o2: Outcome)
    requires s0.log <= o1.state.log <= o2.state.log
    ensures NewSteps(s0, o2) == NewSteps(s0, o1) + NewSteps(o1.state, o2)
  {
    SliceSplit(s0.log, o1.state.log, o2.state.log);
    ShapesAppend(o1.state.log[|s0.log|..], o2.state.log[|o1.state.log|..]);
  }

  lemma PrefixConcat(x: seq<Step>, p: seq<Step>, y: seq<Step>, q: seq<Step>)
    requires x <= p && y <= q && (x != p ==> y == [])
    ensures x + y <= p + q
  {
  }

  /** Materialising logs one subdir result for `dst`, or nothing when it raises. */
  lemma MaterializeSteps(env: Env, st: State, dst: Path)
    ensures var m := Materialize(env, st, dst);
      st.log <= m.state.log &&
      (m.Done? ==> NewSteps(st, m) == [SubdirStep(dst)]) &&
      (m.Aborted? ==> NewSteps(st, m) == [])
  {
    var m := Materialize(env, st, dst);
    if m.Done? {
      assert m.state.log == st.log + [m.state.log[|st.log|]];
      assert m.state.log[|st.log|..] == [m.state.log[|st.log|]];
    } else {
      assert m.state.log[|st.log|..] == [];
    }
  }

  /** Linking logs one link result for `link`, or nothing when it raises. */
  lemma LinkSteps(env: Env, st: State, target: Path, link: Path)
    ensures var o := Link(env, st, target, link);
      st.log <= o.state.log &&
      (o.Done? ==> NewSteps(st, o) == [LinkStep(link)]) &&
      (o.Aborted? ==> NewSteps(st, o) == [])
  {
    var o := Link(env, st, target, link);
    if o.Done? {
      assert o.state.log[|st.log|..] == [o.state.log[|st.log|]];
    } else {
      assert o.state.log[|st.log|..] == [];
    }
  }

  /**
    A walk logs exactly the planned results in the planned order when it
    completes, and a prefix of them when an exception escapes.
   */
  lemma {:induction false} WalkFollowsPlan(env: Env, src: Path, t: Tree, dst: Path, st: State)
    ensures var out := LinkContents(env, src, t, dst, st);
      NewSteps(st, out) <= Plan(t, dst) &&
      (out.Done? ==> NewSteps(st, out) == Plan(t, dst))
    decreases t, 1, 0
  {
    var out := LinkContents(env, src, t, dst, st);
    var m := Materialize(env, st, dst);
    MaterializeSteps(env, st, dst);
    if m.Done? && t.SourceDir? {
      assert out == LinkEntries(env, src, t, 0, dst, m.state);
      EntriesFollowPlan(env, src, t, 0, dst, m.state);
      NewStepsChain(st, m, out);
      PrefixConcat([SubdirStep(dst)], [SubdirStep(dst)], NewSteps(m.state, out), PlanEntries(t, 0, dst));
    } else {
      assert out.state == m.state;
    }
  }

  lemma {:induction false} EntriesFollowPlan(env: Env, src: Path, t: Tree, i: nat, dst: Path, st: State)
    requires t.SourceDir? && i <= |t.entries|
    ensures var out := LinkEntries(env, src, t, i, dst, st);
      NewSteps(st, out) <= PlanEntries(t, i, dst) &&
      (out.Done? ==> NewSteps(st, out) == PlanEntries(t, i, dst))
    decreases t, 0, |t.entries| - i
  {
    var out := LinkEntries(env, src, t, i, dst, st);
    if i == |t.entries| {
      assert st.log[|st.log|..] == [];
    } else {
      var e := t.entries[i];
      var first := LinkEntry(env, src, t, i, dst, st);
      assert st.log <= first.state.log &&
             NewSteps(st, first) <= EntryPlan(t, i, dst) &&
             (first.Done? ==> NewSteps(st, first) == EntryPlan(t, i, dst)) by {
        if e.name == Marker {
          assert st.log[|st.log|..] == [];
        } else if Nested(e.node) {
          WalkFollowsPlan(env, src + [e.name], e.node, dst + [e.name], st);
        } else {
          LinkSteps(env, st, src + [e.name], dst + [e.name]);
        }
      }
      if first.Done? {
        assert out == LinkEntries(env, src, t, i + 1, dst, first.state);
        EntriesFollowPlan(env, src, t, i + 1, dst, first.state);
        NewStepsChain(st, first, out);
        PrefixConcat(NewSteps(st, first), EntryPlan(t, i, dst), NewSteps(first.state, out), PlanEntries(t, i + 1, dst));
      } else {
        assert out == first;
        PrefixConcat(NewSteps(st, first), EntryPlan(t, i, dst), [], PlanEntries(t, i + 1, dst));
        assert NewSteps(st, first) + [] == NewSteps(st, first);
      }
    }
  }
}
